=== FILE: README.md ===
# ScoreSaber enhanced BeatLeader replays: a Dafny model of the score enrichment

The userscript `scoresaber-enhanced-bl-replays.user.js` intercepts the
ScoreSaber profile page's scores request. It reads the player's scores from
the response and looks up every song's map on BeatSaver. It then enriches
each score with the map id, bpm, difficulty variant and maximum score, and
draws extra buttons and statistics on the page. For each score it also asks
BeatLeader for a replay, and shows either that replay, a fallback replay
link, or nothing.

This project models the logic behind that, with the browser removed:

- **`Js`**: JavaScript `null`/`undefined` as `Option`, and the truthiness
  tests the script uses.
- **`Text`**: helpers for the string handling the script relies on:
  - decimal digits;
  - ASCII upper-casing;
  - the leftmost-match search of an unanchored regular expression;
  - `indexOf`, `includes`, and `replace` with a string pattern.
- **`MaxScore`**: `getMaxScore`, the maximum score of a map by note count.
- **`QueryContext`**: the page context `{playerId, page, sort}` and its
  `JSON.stringify` form. The script compares contexts by that form and uses
  it as the key of its batch store.
- **`UrlData`**: `matchSiteUrl`, `matchApiUrl` and `getUrlData`. Each
  regular expression is written out as a parser over the URL's characters.
- **`Scores`**: the normaliser that turns the `playerScores` payload into
  score records.
- **`BeatSaver`**: `beatSaverService.byHash`, modelled as a state machine.
  - The state has three parts: the metadata cache, the registry of requests
    in flight, and a log of the requests issued.
  - The network outcome is an input.
- **`Enrichment`**: `fetchBeatSaverData`, which merges the metadata into
  the batch. It uses the difficulty table and publishes the batch under its
  context.
- **`Correlator`**: `lastParams`, and how it is used:
  - the request interceptor and the navigation handler update it;
  - the render guard draws a batch only on its own page.
- **`Replay`**: the replay lookup of one row:
  - the composite store key;
  - the lookup that checks the store first and then asks the API;
  - the mode table;
  - the choice between a BeatLeader replay, the fallback, or nothing;
  - the miss-improvement label built from the "Missed: n" / "Bad Cut: n"
    titles;
  - the row loop, which a throwing row ends.

`byHash` is an `async` function with one `await`. `ByHash` models its
synchronous part: the caller either gets an answer at once or waits on a
request. `Settle` models the continuation, including the `finally` clause,
and each waiting caller runs it with the request's outcome.

`fetchBeatSaverData` awaits every lookup before it merges. It is modelled as
a function of the lookups' answers (`resolved`).

The navigation handler reads the page address first and compares it with
`lastParams` after a delay. `OnHistory` therefore takes both as independent
inputs.

Behaviours of the code worth noting, all modelled as written:

- A BeatSaver answer whose last version has an empty `diffs` list is
  accepted, since only a missing list is rejected.
- A score without metadata leaves an empty slot in the enriched batch
  rather than being dropped.
- The replay lookup takes the first record of BeatLeader's answer, whatever
  its score.
- A rejected replay lookup shows nothing, not even the fallback link.
- A `null` rank compares as 0 in `rank <= 500`, so a score with pp and no
  rank gets the fallback.

## Model

| member | source | states |
|---|---|---|
| MaxScore.GetMaxScore | scoresaber-enhanced-bl-replays.user.js:118-128 | the maximum score in closed form per tier: 115·b up to 1 note, 230·b−115 up to 5, 460·b−1265 up to 13, 920·b−7245 from 14 on |
| MaxScore.GetMaxScoreIsFullComboScore | scoresaber-enhanced-bl-replays.user.js:118-128 | the formula equals the sum over notes of 115 times the combo multiplier of 1, 2, 4 or 8 reached at that note |
| MaxScore.MaxScoreMonotone | scoresaber-enhanced-bl-replays.user.js:118-128 | more notes never give a lower maximum, and strictly more notes a strictly higher one |
| MaxScore.MaxScoreBoundaries | scoresaber-enhanced-bl-replays.user.js:118-128 | the values at the tier boundaries: 0→0, 1→115, 2→345, 5→1035, 6→1495, 13→4715, 14→5635 |
| QueryContext.ParamsHash | scoresaber-enhanced-bl-replays.user.js:67 | `JSON.stringify` of a context, fields in the order playerId, page, sort, and `null` for none, is read back to the same context by an independent field-by-field parser |
| QueryContext.ParamsHashInjective | scoresaber-enhanced-bl-replays.user.js:67 | two contexts serialise equally exactly when they are equal, so string comparison is structural comparison |
| UrlData.MatchAt | scoresaber-enhanced-bl-replays.user.js:69-70 | a match at a start position reads, from that position to the end of the URL, the leading path, a digit-only player id, the trail and, when present, `?page=`, the page digits, `&sort=` and a sort without line terminators; page and sort are captured together or not at all |
| UrlData.MatchAtComplete | scoresaber-enhanced-bl-replays.user.js:69-70 | conversely, wherever the URL from a start position on is the leading path, a digit-only id, the trail and optionally `?page=`, digits, `&sort=` and a one-line sort, the expression matches there and captures exactly those parts |
| UrlData.GetUrlData | scoresaber-enhanced-bl-replays.user.js:71-81 | no context exactly when no start position matches; otherwise the leftmost match's id, the parsed page or 1 when absent, and sort `recent` exactly when the captured text is `recent` |
| UrlData.GetUrlDataRoundTrip | scoresaber-enhanced-bl-replays.user.js:69-81 | a context written as a site or API URL is parsed back unchanged behind any origin in which the pattern's leading path does not start |
| UrlData.OriginHasNoLead | scoresaber-enhanced-bl-replays.user.js:69-70 | neither leading path, `/u/` nor `/api/player/`, starts inside `https://scoresaber.com`, whatever follows it |
| UrlData.OriginRoundTrip | scoresaber-enhanced-bl-replays.user.js:69-81 | every context's page URL and API URL on `https://scoresaber.com` parse back to that context |
| UrlData.GetUrlDataDefaults | scoresaber-enhanced-bl-replays.user.js:69-81 | a URL without the query part, behind such an origin, gives page 1 sorted by top |
| UrlData.GetUrlDataOfShape | scoresaber-enhanced-bl-replays.user.js:69-81 | any URL of the pattern's shape, behind an origin in which the leading path does not start, gives its id, the page digits' value (leading zeros allowed) or 1 without the query, and Recent exactly for the sort text `recent` |
| Scores.NormalizeFrom | scoresaber-enhanced-bl-replays.user.js:810-825 | every record is built from the entry its `idx` names; records are in payload order; every entry with truthy hash, difficulty, base score, modified score and multiplier is kept |
| Scores.Normalize | scoresaber-enhanced-bl-replays.user.js:810-825 | a missing `playerScores` list gives no scores; a present one is normalised from position 0, as NormalizeFrom characterises |
| Scores.NormalizeKeepsWellFormed | scoresaber-enhanced-bl-replays.user.js:810-825 | a payload of well-formed entries keeps all of them, record k carrying position k |
| Scores.NormalizeDropsOne | scoresaber-enhanced-bl-replays.user.js:821-825 | one malformed entry is dropped and every later position shifts down by one, the kept records still carrying their own positions |
| BeatSaver.ByHash | scoresaber-enhanced-bl-replays.user.js:148-161 | an empty or missing hash answers null with no change; a cached key (a remembered 404 included) is answered from the cache without a request; otherwise the caller waits on the key's request, issued only if none is in flight; the cache is untouched, the registry stays consistent, and the caller's final answer is the reference Answer for every request outcome |
| BeatSaver.Settle | scoresaber-enhanced-bl-replays.user.js:161-184 | a 404 caches null; a non-ok status, failure or incomplete body answers null and leaves the cache alone; a usable body caches and answers `{hash, id, bpm, diffs of the last version}`; the key always leaves the registry |
| BeatSaver.Answer | scoresaber-enhanced-bl-replays.user.js:148-184 | the reference answer of one lookup: null for an empty hash, the cached entry for a cached key, else the request's answer; against a consistent service any metadata answered carries the upper-cased key of the hash asked for |
| BeatSaver.AnswerSharedAcrossCase | scoresaber-enhanced-bl-replays.user.js:151-161 | two spellings of one hash that differ only in letter case get the same answer |
| BeatSaver.ConcurrentLookupsShareOneRequest | scoresaber-enhanced-bl-replays.user.js:157-161 | two lookups of one hash, in any letter case, wait on the same request and issue at most one |
| BeatSaver.SettleIdempotent | scoresaber-enhanced-bl-replays.user.js:161-184 | the second and later waiters of a request change nothing and get the same answer |
| BeatSaver.ByHashAll | scoresaber-enhanced-bl-replays.user.js:734-738 | a batch of lookups issues only requests for keys neither cached nor in flight, each key once, and every waiting call holds the ticket of its key's request |
| BeatSaver.ByHashAllAnswers | scoresaber-enhanced-bl-replays.user.js:148-184 | each call of a batch, once its request settles, answers what a lone lookup of its hash against the batch's starting state would |
| BeatSaver.NotFoundIsNeverRequestedAgain | scoresaber-enhanced-bl-replays.user.js:162-165 | after a 404 no later batch issues a request for that key, which stays cached as null |
| BeatSaver.TransientFailureIsRetried | scoresaber-enhanced-bl-replays.user.js:167-184 | after a transient failure the next lookup issues a new request; once it succeeds, later lookups are answered from the cache |
| Enrichment.DifficultyLabelRoundTrip | scoresaber-enhanced-bl-replays.user.js:50-56 | the difficulty table is a bijection between the codes 1, 3, 5, 7, 9 and the names Easy … ExpertPlus |
| Enrichment.DifficultyLabel | scoresaber-enhanced-bl-replays.user.js:50-56 | a name exactly for the five codes in the table, and the name read backwards through the table gives the code again |
| Enrichment.CharacteristicOfSolo | scoresaber-enhanced-bl-replays.user.js:751-753 | stripping `Solo` from `Solo<c>` leaves `<c>` whenever `<c>` does not contain `OldDots` |
| Enrichment.Characteristic | scoresaber-enhanced-bl-replays.user.js:751-753 | no characteristic exactly without a game mode; stripping never lengthens the mode, and a mode mentioning neither `Solo` nor `OldDots` is kept whole |
| Enrichment.CharacteristicOfOldDots | scoresaber-enhanced-bl-replays.user.js:751-753 | `SoloOldDots<c>` strips to `<c>` for every `<c>` |
| Enrichment.CharacteristicOfOneSaber | scoresaber-enhanced-bl-replays.user.js:751-753 | the mode `SoloOneSaber` strips to `OneSaber` |
| Enrichment.CharacteristicOfOldDotsStandard | scoresaber-enhanced-bl-replays.user.js:751-753 | the mode `SoloOldDotsStandard` strips to `Standard` |
| Enrichment.FindVariant | scoresaber-enhanced-bl-replays.user.js:757 | none exactly when no variant matches characteristic and difficulty name; otherwise the first matching one |
| Enrichment.SelectVariant | scoresaber-enhanced-bl-replays.user.js:751-758 | a variant is only chosen when the characteristic is non-empty and the code is in the table; it is then the first of the map's variants that matches both, and none exactly when none matches |
| Enrichment.EnrichScore | scoresaber-enhanced-bl-replays.user.js:744-766 | a score is enriched exactly when its upper-cased hash has metadata; it keeps its fields, gets the map's id and bpm and the selected variant, and its own maximum when truthy, else the maximum for the variant's notes (0 without one) |
| Enrichment.Merge | scoresaber-enhanced-bl-replays.user.js:744-766 | one slot per score, in order, each the enrichment of that score against the metadata index |
| Enrichment.DistinctHashes | scoresaber-enhanced-bl-replays.user.js:731 | the non-empty hashes of the batch, each once, every one of them taken from some score |
| Enrichment.MetaIndex | scoresaber-enhanced-bl-replays.user.js:738-742 | the metadata found, keyed by its own hash, every entry taken from the answers and every answer indexed |
| Enrichment.MetaIndexLastWins | scoresaber-enhanced-bl-replays.user.js:742 | the entry under a key is the last answer for that key |
| Enrichment.FetchBeatSaverData | scoresaber-enhanced-bl-replays.user.js:730-767 | nothing is produced exactly when no hash found metadata; otherwise one slot per score, in order, each the score enriched from the index |
| Enrichment.ResolvedScoreIsEnriched | scoresaber-enhanced-bl-replays.user.js:742-749 | when every answer is keyed by its hash's upper case and spellings differing in case get one answer, a score whose hash was found is enriched with that metadata's id and bpm |
| Enrichment.ServiceAnswersQualify | scoresaber-enhanced-bl-replays.user.js:148-184 | the answers of a consistent BeatSaver service have both of those properties |
| Enrichment.ServiceScoreIsEnriched | scoresaber-enhanced-bl-replays.user.js:730-749 | on the service itself, a score whose hash the service answers with metadata is enriched with that metadata's id and bpm |
| Enrichment.Publish | scoresaber-enhanced-bl-replays.user.js:744 | the batch is stored under its context's serialised form and every other context's batch is kept |
| Enrichment.ExampleEnrichment | scoresaber-enhanced-bl-replays.user.js:744-766 | an ExpertPlus SoloStandard score without a leaderboard maximum, on a map whose Standard ExpertPlus variant has 300 notes, gets maximum 268755 |
| Correlator.OnXhrOpen | scoresaber-enhanced-bl-replays.user.js:795-797 | an API scores URL records its context; any other URL changes nothing |
| Correlator.OnHistory | scoresaber-enhanced-bl-replays.user.js:773-784 | a page with a context is enhanced and recorded exactly when its context differs from the recorded one; otherwise nothing changes |
| Correlator.HistoryDebounced | scoresaber-enhanced-bl-replays.user.js:777-782 | a repeated navigation to the same page enhances nothing |
| Correlator.RequestSuppressesNavigation | scoresaber-enhanced-bl-replays.user.js:778-797 | the page's own scores request, seen before the navigation settles, suppresses the navigation's enhancement, behind any origin in which neither leading path starts |
| Correlator.NavigationToOtherContextEnhances | scoresaber-enhanced-bl-replays.user.js:773-784 | navigating to a context other than the recorded one enhances and records it, behind any origin in which `/u/` does not start |
| Correlator.ShouldRenderMeans | scoresaber-enhanced-bl-replays.user.js:346 | the guard at line 346, over the key and batch read at lines 193-194: drawing proceeds exactly when a batch is stored for the context and the page on screen parses to that context |
| Correlator.PublishedBatchRendersOnItsPage | scoresaber-enhanced-bl-replays.user.js:346 | a published batch is drawn on its own page and not on the page of another context, behind any origin in which `/u/` does not start |
| Correlator.OnScoreSaber | scoresaber-enhanced-bl-replays.user.js:773-797 | on `https://scoresaber.com`: the page's own request suppresses the navigation, a navigation to another context enhances it, and a published batch is drawn on its own page only |
| Replay.ModeOf | scoresaber-enhanced-bl-replays.user.js:58-61 | the mode is Standard or Lawless, Lawless exactly for SoloLawless |
| Replay.ModeAgreesWithCharacteristic | scoresaber-enhanced-bl-replays.user.js:486 | for the two solo modes the replay mode equals the characteristic the enrichment strips the game mode to |
| Replay.GenerateKeyInjective | scoresaber-enhanced-bl-replays.user.js:432-434 | with ids and hashes of fixed lengths, digit-free difficulty names and non-negative scores, two keys are equal exactly when all five parts are |
| Replay.GenerateKey | scoresaber-enhanced-bl-replays.user.js:432-434 | the key is the five parts written one after the other, starting with the player id and ending with the mode; GenerateKeyInjective shows the parts are recovered from it |
| Replay.FetchOrGet | scoresaber-enhanced-bl-replays.user.js:458-478 | a stored summary is answered without the API; a failure rejects; an empty answer is null and stores nothing; otherwise the first record's summary is stored and answered; no other key changes |
| Replay.ExtractRequiredData | scoresaber-enhanced-bl-replays.user.js:415-429 | a summary keeps each of the eleven fields the function copies: the replay id, left and right accuracy, accuracy and full-combo accuracy, bad cuts, missed notes, bomb cuts, wall hits, pauses and the score improvement |
| Replay.FoundIsKept | scoresaber-enhanced-bl-replays.user.js:461-474 | once found, a key is answered from the store whatever the API would say |
| Replay.MissIsRetried | scoresaber-enhanced-bl-replays.user.js:463-472 | a lookup that failed or found nothing leaves the store as it was, so the next one asks again |
| Replay.Classify | scoresaber-enhanced-bl-replays.user.js:630-681 | a BeatLeader replay of the summary's id exactly when one was found; the fallback exactly when the answer was null and the score has pp and rank at most 500 |
| Replay.FallbackRankBound | scoresaber-enhanced-bl-replays.user.js:662 | with pp, a missing rank or one up to 500 gets the fallback and a rank above 500 does not |
| Replay.ReplayRow | scoresaber-enhanced-bl-replays.user.js:480-486 | an empty slot or a zero maximum or base score skips the row (the guard at line 351), as does a zero modified score; otherwise a score without a variant throws, and any other row is looked up under its key and classified |
| Replay.UnmatchedUnrankedRowIsSkipped | scoresaber-enhanced-bl-replays.user.js:351 | a score without a leaderboard maximum on a map with no matching variant is enriched with maximum 0, so its row is skipped before any lookup |
| Replay.UpToFirstThrow | scoresaber-enhanced-bl-replays.user.js:349 | a loop gets through its rows in order up to and including the first that throws, and through all of them when none throws |
| Replay.RowsPass | scoresaber-enhanced-bl-replays.user.js:348-701 | each row of a pass is the row model against the store as the pass found it; a row that throws is the last one processed, so no later row is looked up; with no throwing row every row is processed |
| Replay.RowKeyUsesTableName | scoresaber-enhanced-bl-replays.user.js:481-486 | an enriched score's key carries the table's difficulty name for its code |
| Replay.NumberAfter | scoresaber-enhanced-bl-replays.user.js:619-623 | no number exactly when no position holds the marker followed by a digit; otherwise the number read at the leftmost such position |
| Replay.ExtractValuesFromTitle | scoresaber-enhanced-bl-replays.user.js:618-626 | each count is the number after the leftmost `Missed: ` (or `Bad Cut: `) followed by a digit, and 0 when there is none |
| Replay.MissedReadBack | scoresaber-enhanced-bl-replays.user.js:619-620 | the missed-note count written after `Missed: ` at the start of a title is read back |
| Replay.BadCutReadBack | scoresaber-enhanced-bl-replays.user.js:622-623 | the bad-cut count written after `Bad Cut: ` is read back when nothing before it holds a `B` |
| Replay.ExtractValuesRoundTrip | scoresaber-enhanced-bl-replays.user.js:618-626 | the missed-note and bad-cut counts written into a title are read back |
| Replay.MissLabel | scoresaber-enhanced-bl-replays.user.js:605-609 | the label, ` vs FC` for 0 and ` vs <n>` otherwise, is read back to the delta by an independent parser |
| Replay.MissDeltaIsPreviousMisses | scoresaber-enhanced-bl-replays.user.js:596-609 | when the improvement is current less previous counts, the delta is the previous play's misses plus bad cuts, labelled FC exactly when that is zero |
| Replay.MissDelta | scoresaber-enhanced-bl-replays.user.js:592-603 | a title without `Missed` counts nothing, so the delta is minus the improvement's misses and bad cuts; otherwise the delta plus the improvement is the two counts read from the title |
| Replay.FullComboDelta | scoresaber-enhanced-bl-replays.user.js:592-603 | a title that does not contain `Missed` contributes no counts: its delta is minus the improvement's misses and bad cuts |
| Replay.FullComboTitle | scoresaber-enhanced-bl-replays.user.js:589 | the title `Full Combo` does not contain `Missed` |
| Replay.Selected | scoresaber-enhanced-bl-replays.user.js:589 | the titles selected are those containing `Missed` or `Full Combo`, each kept as many times as it occurs |
| Replay.SelectedAppend | scoresaber-enhanced-bl-replays.user.js:589 | selection keeps document order: the titles of two consecutive runs of elements are selected as the first run's selection followed by the second's |
| Replay.SelectedSingle | scoresaber-enhanced-bl-replays.user.js:589 | a single element is selected exactly when its title contains `Missed` or `Full Combo` |
| Replay.MissAnnotations | scoresaber-enhanced-bl-replays.user.js:546-553 | no labels when the accuracy improvement is zero; otherwise one label per selected element, each reading back to that element's delta |

## Left out

- DOM rendering is left out because it is UI side effects: buttons, styles, display toggles, the accuracy column and the link markup.
- The row guards that depend on page elements (song image, hash in the cover URL, existing buttons) are left out for the same reason.
- The clipboard helpers are left out because they are browser APIs.
- The `XMLHttpRequest` and `history.pushState` interception is left out as transport plumbing; only the context parsing and the normaliser it feeds are modelled.
- The `localStorage` and `GM_setValue` persistence and the debounced save timer are left out. The caches and the replay store are in-memory maps.
- The `delay` and `setTimeout` waits are left out; the interleavings they allow are represented by taking the states before and after them as inputs.
- Real HTTP and JSON parsing are left out. Responses are abstract outcomes, and a body that fails to parse counts as a failed request.
- Floating-point accuracy values and their formatting (`toFixed`, `toLocaleString`) are left out because they only feed the display.
- Text.ToUpper: upper-cases ASCII letters only; `toUpperCase` also maps other Unicode letters, which song hashes do not contain.
- Replay.NumberAfter: reads counts as unbounded integers, while `Number` loses precision beyond 2^53.
- UrlData.GetUrlData: reads the page as an unbounded integer, while `parseInt` loses precision beyond 2^53.
- Replay.ReplayRow: a row whose BeatLeader record lacks `scoreImprovement` would throw in the source; the model's records always carry it.
- UrlData.GetUrlDataRoundTrip: covers URLs behind an origin in which the pattern's leading path does not start. An origin that itself holds `/u/<digits>` could make the first match land inside the origin; `OriginRoundTrip` covers the real origin.
- Replay.RowsPass: the work after the row loop (the toggle-button container at lines 704-726) and the unhandled rejection of `enhance` once a row throws are left out as DOM and promise plumbing. The stores written by a pass's answers are not merged, because the order in which the answers arrive is not modelled.
- `NaN` is left out: no field the model reads can hold it once the payload is normalised.
- Interleavings of `byHash` calls beyond "all lookups of a batch are issued, then each waiter settles" are left out; `ByHash` and `Settle` can be composed in any order, but no lemma covers arbitrary schedules.

=== FILE: beatsaver.dfy ===
/** `beatSaverService` (scoresaber-enhanced-bl-replays.user.js:130-190): map
    metadata by song hash, with a cache that remembers "not found" as `null`
    and an in-flight registry that lets concurrent lookups of one hash share a
    single request.

    `byHash` is an async function with one `await`. It is modelled as two steps:
    ByHash runs the synchronous part up to the `await` and either answers at
    once or leaves the caller waiting on a request; Settle runs the part after
    the `await`, including the `finally`, for one waiting caller once the
    request's outcome is known. Every caller waiting on the same request runs
    Settle with the same outcome. The network is the abstract FetchOutcome. */
module BeatSaver {
  import opened Js
  import opened Text

  /** One entry of `versions[i].diffs`. */
  datatype Variant = Variant(characteristic: Option<string>, difficulty: Option<string>, notes: Option<int>)

  datatype Version = Version(diffs: Option<seq<Variant>>)

  /** The fields of the response body the service reads: `id`, `metadata.bpm`, `versions`. */
  datatype Payload = Payload(id: Option<string>, bpm: Option<real>, versions: Option<seq<Version>>)

  /** What is cached for a hash that was found. */
  datatype Meta = Meta(hash: string, id: string, bpm: real, diffs: seq<Variant>)

  /** `fetchData(hash)`: the request is rejected (network failure, unreadable
      body) or answered with a status and a body. */
  datatype FetchOutcome = Rejected | Responded(status: int, body: Payload)

  /** `cache` maps a key to its metadata or to None for a remembered 404.
      `inFlight` maps a key to the request it waits on, as an index into
      `requests`, the log of requests issued so far. */
  datatype Service = Service(cache: map<string, Option<Meta>>, inFlight: map<string, nat>, requests: seq<string>)

  /** A caller either has its answer or waits on request `ticket` for `key`. */
  datatype Call = Done(result: Option<Meta>) | Waiting(key: string, ticket: nat)

  datatype Begun = Begun(service: Service, call: Call)

  datatype Settled = Settled(service: Service, result: Option<Meta>)

  const Empty: Service := Service(map[], map[], [])

  /** A key is never both cached and in flight, each in-flight entry names
      a request issued for that key, and cached metadata carries its own key. */
  predicate Valid(s: Service) {
    && (forall k :: k in s.inFlight ==>
          k !in s.cache && s.inFlight[k] < |s.requests| && s.requests[s.inFlight[k]] == k)
    && (forall k :: k in s.cache && s.cache[k].Some? ==> s.cache[k].value.hash == k)
  }

  /** `response.ok` */
  predicate Ok(status: int) {
    200 <= status <= 299
  }

  /** The body is usable when it has a non-empty id, a non-zero bpm, at least
      one version, and a list of variants in its last version. */
  predicate Usable(body: Payload) {
    && TruthyString(body.id)
    && TruthyReal(body.bpm)
    && body.versions.Some? && |body.versions.value| > 0
    && body.versions.value[|body.versions.value| - 1].diffs.Some?
  }

  /** The cached record: the key, the map id and bpm, and the variants of the latest version. */
  function ToMeta(key: string, body: Payload): (m: Meta)
    requires Usable(body)
    ensures m.hash == key && |m.id| > 0 && m.bpm != 0.0
  {
    var versions := body.versions.value;
    Meta(key, body.id.value, body.bpm.value, versions[|versions| - 1].diffs.value)
  }

  /** An outcome that is neither a 404 nor a usable answer: logged, answered
      with null, not cached. */
  predicate Transient(o: FetchOutcome) {
    o.Rejected? || (o.status != 404 && (!Ok(o.status) || !Usable(o.body)))
  }

  /** The cache key of a hash. */
  function Key(hash: string): string {
    ToUpper(hash)
  }

  /** What a request for `key` answers once its outcome is known: the
      metadata of a usable ok answer, null for anything else. */
  function Outcome(key: string, o: FetchOutcome): (r: Option<Meta>)
    ensures r.Some? <==> o.Responded? && o.status != 404 && Ok(o.status) && Usable(o.body)
    ensures r.Some? ==> r == Some(ToMeta(key, o.body))
  {
    match o
    case Rejected => None
    case Responded(status, body) => if status != 404 && Ok(status) && Usable(body) then Some(ToMeta(key, body)) else None
  }

  /** What a lookup of `hash` against `s` finally answers when the request
      for its key, if one is needed, ends with `o`: null for an empty hash,
      the cached entry for a cached key, else the request's answer. This is
      the reference the two steps ByHash and Settle are measured against. */
  function Answer(s: Service, hash: Option<string>, o: FetchOutcome): (r: Option<Meta>)
    ensures Valid(s) && r.Some? ==> TruthyString(hash) && r.value.hash == Key(hash.value)
  {
    if !TruthyString(hash) then None
    else if Key(hash.value) in s.cache then s.cache[Key(hash.value)]
    else Outcome(Key(hash.value), o)
  }

  /** Lookups of two spellings of one hash, differing only in letter case, get the same answer. */
  lemma AnswerSharedAcrossCase(s: Service, h1: string, h2: string, o: FetchOutcome)
    requires Key(h1) == Key(h2)
    ensures Answer(s, Some(h1), o) == Answer(s, Some(h2), o)
  {
    assert |h1| == |Key(h1)| == |h2|;
  }

  /** A caller's final answer: its immediate one, or its request's. */
  function Finish(c: Call, o: FetchOutcome): Option<Meta> {
    match c
    case Done(result) => result
    case Waiting(key, _) => Outcome(key, o)
  }

  /** `byHash(hash)` up to its `await`. An empty or missing hash is answered
      with null before anything else. A cached key, including a remembered
      404, is answered from the cache (and, through `finally`, dropped from the
      registry). Otherwise the caller waits on the key's request, which is
      issued only when none is in flight. The cache is never touched here. */
  function ByHash(s: Service, hash: Option<string>): (r: Begun)
    ensures r.service.cache == s.cache
    ensures !TruthyString(hash) ==> r == Begun(s, Done(None))
    ensures TruthyString(hash) && Key(hash.value) in s.cache ==>
      r.call == Done(s.cache[Key(hash.value)]) && r.service.requests == s.requests
    ensures TruthyString(hash) && Key(hash.value) !in s.cache ==>
      Key(hash.value) in r.service.inFlight && r.call == Waiting(Key(hash.value), r.service.inFlight[Key(hash.value)])
    ensures TruthyString(hash) && Key(hash.value) !in s.cache && Key(hash.value) !in s.inFlight ==>
      r.service.requests == s.requests + [Key(hash.value)]
    ensures r.service.requests != s.requests ==>
      && TruthyString(hash) && Key(hash.value) !in s.cache && Key(hash.value) !in s.inFlight
      && r.service.requests == s.requests + [Key(hash.value)]
    ensures forall k :: k in s.inFlight && k !in s.cache ==>
      k in r.service.inFlight && r.service.inFlight[k] == s.inFlight[k]
    ensures Valid(s) ==> Valid(r.service)
    ensures forall o :: Finish(r.call, o) == Answer(s, hash, o)
  {
    if !TruthyString(hash) then Begun(s, Done(None))
    else
      var key := Key(hash.value);
      if key in s.cache then
        Begun(s.(inFlight := s.inFlight - {key}), Done(s.cache[key]))
      else if key in s.inFlight then
        Begun(s, Waiting(key, s.inFlight[key]))
      else
        var ticket := |s.requests|;
        Begun(s.(inFlight := s.inFlight[key := ticket], requests := s.requests + [key]), Waiting(key, ticket))
  }

  /** `byHash` after its `await`, for one caller waiting on `key`: a 404 stores
      null for the key; a usable answer stores and returns its metadata; any
      other outcome returns null and leaves the cache alone. In every case the
      key leaves the registry and no request is issued. */
  function Settle(s: Service, key: string, o: FetchOutcome): (r: Settled)
    ensures r.service.inFlight == s.inFlight - {key}
    ensures r.service.requests == s.requests
    ensures forall k :: k != key ==> (k in r.service.cache <==> k in s.cache)
    ensures forall k :: k != key && k in s.cache ==> r.service.cache[k] == s.cache[k]
    ensures o.Responded? && o.status == 404 ==>
      r.result.None? && key in r.service.cache && r.service.cache[key].None?
    ensures Transient(o) ==> r.result.None? && r.service.cache == s.cache
    ensures o.Responded? && o.status != 404 && Ok(o.status) && Usable(o.body) ==>
      r.result == Some(ToMeta(key, o.body)) && key in r.service.cache && r.service.cache[key] == r.result
    ensures r.result.Some? ==> r.result.value.hash == key
    ensures r.result == Outcome(key, o)
    ensures Valid(s) ==> Valid(r.service)
  {
    var released := s.(inFlight := s.inFlight - {key});
    match o
    case Rejected => Settled(released, None)
    case Responded(status, body) =>
      if status == 404 then Settled(released.(cache := s.cache[key := None]), None)
      else if !Ok(status) || !Usable(body) then Settled(released, None)
      else
        var m := ToMeta(key, body);
        Settled(released.(cache := s.cache[key := Some(m)]), Some(m))
  }

  /** Two concurrent lookups of one hash (in any letter case) wait on the same
      request, and at most one request is issued for both. */
  lemma ConcurrentLookupsShareOneRequest(s: Service, h1: string, h2: string)
    requires Valid(s)
    requires |h1| > 0 && Key(h1) == Key(h2) && Key(h1) !in s.cache
    ensures ByHash(s, Some(h1)).call.Waiting?
    ensures ByHash(ByHash(s, Some(h1)).service, Some(h2)).call == ByHash(s, Some(h1)).call
    ensures |ByHash(ByHash(s, Some(h1)).service, Some(h2)).service.requests| <= |s.requests| + 1
  {
  }

  /** Every waiting caller of a request runs Settle with its outcome; the
      second and later ones change nothing and get the same answer. */
  lemma SettleIdempotent(s: Service, key: string, o: FetchOutcome)
    ensures Settle(Settle(s, key, o).service, key, o) == Settle(s, key, o)
  {
    var r1 := Settle(s, key, o);
    var r2 := Settle(r1.service, key, o);
    assert r2.service.inFlight == r1.service.inFlight;
    assert r2.service.cache == r1.service.cache;
  }

  /** The answer depends on the service only through its cache. */
  lemma SameCacheSameAnswer(s1: Service, s2: Service, hash: Option<string>)
    requires s1.cache == s2.cache
    ensures forall o :: Answer(s1, hash, o) == Answer(s2, hash, o)
  {
  }

  /** The calls of a batch, one lookup per hash, issued one after the other
      before any of them is settled. */
  function ByHashAll(s: Service, hashes: seq<Option<string>>): (r: (Service, seq<Call>))
    requires Valid(s)
    ensures Valid(r.0)
    ensures |r.1| == |hashes|
    ensures r.0.cache == s.cache
    ensures forall k :: k in s.inFlight ==> k in r.0.inFlight
    ensures |s.requests| <= |r.0.requests| && r.0.requests[..|s.requests|] == s.requests
    ensures forall i :: |s.requests| <= i < |r.0.requests| ==>
      r.0.requests[i] !in s.cache && r.0.requests[i] !in s.inFlight && r.0.requests[i] in r.0.inFlight
    ensures forall i, j :: |s.requests| <= i < j < |r.0.requests| ==> r.0.requests[i] != r.0.requests[j]
    ensures forall i :: 0 <= i < |hashes| && r.1[i].Waiting? ==>
      r.1[i].key in r.0.inFlight && r.0.inFlight[r.1[i].key] == r.1[i].ticket
    decreases |hashes|
  {
    if |hashes| == 0 then (s, [])
    else
      var (mid, calls) := ByHashAll(s, hashes[..|hashes| - 1]);
      var b := ByHash(mid, hashes[|hashes| - 1]);
      (b.service, calls + [b.call])
  }

  /** Every call of a batch ends with the answer a lone lookup of its hash
      against the batch's starting state would give. */
  lemma {:induction false} ByHashAllAnswers(s: Service, hashes: seq<Option<string>>, i: nat, o: FetchOutcome)
    requires Valid(s) && i < |hashes|
    ensures Finish(ByHashAll(s, hashes).1[i], o) == Answer(s, hashes[i], o)
    decreases |hashes|
  {
    var init := hashes[..|hashes| - 1];
    var (mid, calls) := ByHashAll(s, init);
    if i < |hashes| - 1 {
      ByHashAllAnswers(s, init, i, o);
      assert init[i] == hashes[i];
    } else {
      SameCacheSameAnswer(mid, s, hashes[i]);
    }
  }

  /** A hash once answered 404 never causes another request: in any later
      batch it is answered null from the cache. */
  lemma NotFoundIsNeverRequestedAgain(s: Service, key: string, body: Payload, hashes: seq<Option<string>>)
    requires Valid(s)
    ensures var after := Settle(s, key, Responded(404, body)).service;
      var r := ByHashAll(after, hashes);
      && (forall i :: |after.requests| <= i < |r.0.requests| ==> r.0.requests[i] != key)
      && key in r.0.cache && r.0.cache[key].None?
  {
  }

  /** A transient failure leaves the hash uncached and out of the registry, so
      the next lookup issues a fresh request; if that one succeeds, its
      metadata is cached and later lookups are answered from the cache. */
  lemma TransientFailureIsRetried(s: Service, h: string, failed: FetchOutcome, body: Payload)
    requires Valid(s)
    requires |h| > 0 && Key(h) !in s.cache
    requires Transient(failed)
    requires Usable(body)
    ensures var b1 := ByHash(s, Some(h));
      var c1 := Settle(b1.service, Key(h), failed);
      var b2 := ByHash(c1.service, Some(h));
      var c2 := Settle(b2.service, Key(h), Responded(200, body));
      && c1.result.None? && Key(h) !in c1.service.cache
      && b2.call == Waiting(Key(h), |c1.service.requests|)
      && b2.service.requests == c1.service.requests + [Key(h)]
      && c2.result == Some(ToMeta(Key(h), body))
      && ByHash(c2.service, Some(h)).call == Done(Some(ToMeta(Key(h), body)))
  {
  }
}

=== FILE: correlator.dfy ===
/** The context correlator: `lastParams` (scoresaber-enhanced-bl-replays.user.js:63)
    remembers the context of the latest scores request or enhancement. An
    intercepted API request sets it (lines 795-797); a navigation re-enhances
    only when its page context differs from it (lines 773-784); and the
    renderer draws a batch only while it belongs to the page on screen
    (lines 193-194 and 346). Contexts are compared by their serialised form. */
module Correlator {
  import opened Js
  import opened QueryContext
  import opened UrlData
  import opened Enrichment

  datatype Correlator = Correlator(lastParams: Option<Context>)

  const Initial: Correlator := Correlator(None)

  /** `XMLHttpRequest.prototype.open`: a scores API URL records its context;
      any other URL leaves the state alone. */
  function OnXhrOpen(st: Correlator, url: string): (r: Correlator)
    ensures GetUrlData(url, ApiPattern).None? ==> r == st
    ensures GetUrlData(url, ApiPattern).Some? ==> r.lastParams == GetUrlData(url, ApiPattern)
  {
    var params := GetUrlData(url, ApiPattern);
    if params.Some? then Correlator(params) else st
  }

  /** The new state and the context to enhance, if any. */
  datatype HistoryStep = HistoryStep(state: Correlator, enhance: Option<Context>)

  /** `triggerHistoryEnhance`: `url` is the page address read when the
      navigation happens, `st` the state once the settle delay has passed.
      A page without a context does nothing; otherwise the context is
      enhanced, and recorded, exactly when its serialised form differs from
      that of `lastParams`, that is, when it is a different context. */
  function OnHistory(st: Correlator, url: string): (r: HistoryStep)
    ensures GetUrlData(url, SitePattern).None? ==> r == HistoryStep(st, None)
    ensures r.enhance.Some? <==> GetUrlData(url, SitePattern).Some? && GetUrlData(url, SitePattern) != st.lastParams
    ensures r.enhance.Some? ==> r.enhance == GetUrlData(url, SitePattern) && r.state.lastParams == r.enhance
    ensures r.enhance.None? ==> r.state == st
  {
    var params := GetUrlData(url, SitePattern);
    if params.None? then HistoryStep(st, None)
    else
      ParamsHashInjective(params, st.lastParams);
      if ParamsHash(params) != ParamsHash(st.lastParams) then HistoryStep(Correlator(params), params)
      else HistoryStep(st, None)
  }

  /** A second navigation to the same page, after the first has settled, does nothing. */
  lemma {:induction false} HistoryDebounced(st: Correlator, url: string)
    ensures OnHistory(OnHistory(st, url).state, url) == HistoryStep(OnHistory(st, url).state, None)
  {
    var first := OnHistory(st, url);
    if GetUrlData(url, SitePattern).Some? {
      assert first.state.lastParams == GetUrlData(url, SitePattern);
    }
  }

  /** The page's own scores request, intercepted before the navigation
      settles, suppresses the navigation's enhancement: the response handler
      enhances that context instead. */
  lemma {:induction false} RequestSuppressesNavigation(st: Correlator, origin: string, c: Context)
    requires NoLeadBefore(ApiPattern, origin + Render(ApiPattern, c), |origin|)
    requires NoLeadBefore(SitePattern, origin + Render(SitePattern, c), |origin|)
    ensures OnHistory(OnXhrOpen(st, origin + Render(ApiPattern, c)), origin + Render(SitePattern, c)).enhance.None?
  {
    GetUrlDataRoundTrip(ApiPattern, origin, c);
    GetUrlDataRoundTrip(SitePattern, origin, c);
  }

  /** Navigating to a page whose context differs from the recorded one enhances it. */
  lemma {:induction false} NavigationToOtherContextEnhances(st: Correlator, origin: string, c: Context)
    requires NoLeadBefore(SitePattern, origin + Render(SitePattern, c), |origin|)
    requires st.lastParams != Some(c)
    ensures OnHistory(st, origin + Render(SitePattern, c)) == HistoryStep(Correlator(Some(c)), Some(c))
  {
    GetUrlDataRoundTrip(SitePattern, origin, c);
  }

  /** The render guard: `enhance(params)` draws only when a batch is stored
      under the context and the page on screen shows that same context. */
  predicate ShouldRender(store: BatchStore, params: Context, location: string) {
    var key := ParamsHash(Some(params));
    key in store && key == ParamsHash(GetUrlData(location, SitePattern))
  }

  /** The guard holds exactly when a batch is stored for the context and the
      location parses to it. */
  lemma ShouldRenderMeans(store: BatchStore, params: Context, location: string)
    ensures ShouldRender(store, params, location) <==>
      ParamsHash(Some(params)) in store && GetUrlData(location, SitePattern) == Some(params)
  {
    ParamsHashInjective(Some(params), GetUrlData(location, SitePattern));
  }

  /** A published batch is drawn on its own page and on no other page. */
  lemma {:induction false} PublishedBatchRendersOnItsPage(store: BatchStore, origin: string, c: Context, other: Context,
                                                          batch: seq<Option<Enriched>>)
    requires NoLeadBefore(SitePattern, origin + Render(SitePattern, c), |origin|)
    requires NoLeadBefore(SitePattern, origin + Render(SitePattern, other), |origin|)
    requires other != c
    ensures ShouldRender(Publish(store, c, Some(batch)), c, origin + Render(SitePattern, c))
    ensures !ShouldRender(Publish(store, c, Some(batch)), c, origin + Render(SitePattern, other))
  {
    GetUrlDataRoundTrip(SitePattern, origin, c);
    GetUrlDataRoundTrip(SitePattern, origin, other);
    ShouldRenderMeans(Publish(store, c, Some(batch)), c, origin + Render(SitePattern, c));
    ShouldRenderMeans(Publish(store, c, Some(batch)), c, origin + Render(SitePattern, other));
  }

  /** On the site itself: the page's own request suppresses the navigation,
      a navigation to another context enhances it, and a published batch is
      drawn on its own page only. */
  lemma {:induction false} OnScoreSaber(st: Correlator, c: Context, other: Context, store: BatchStore,
                                        batch: seq<Option<Enriched>>)
    requires other != c
    ensures OnHistory(OnXhrOpen(st, Origin + Render(ApiPattern, c)), Origin + Render(SitePattern, c)).enhance.None?
    ensures st.lastParams != Some(c) ==>
      OnHistory(st, Origin + Render(SitePattern, c)) == HistoryStep(Correlator(Some(c)), Some(c))
    ensures ShouldRender(Publish(store, c, Some(batch)), c, Origin + Render(SitePattern, c))
    ensures !ShouldRender(Publish(store, c, Some(batch)), c, Origin + Render(SitePattern, other))
  {
    OriginHasNoLead(ApiPattern, Render(ApiPattern, c));
    OriginHasNoLead(SitePattern, Render(SitePattern, c));
    OriginHasNoLead(SitePattern, Render(SitePattern, other));
    RequestSuppressesNavigation(st, Origin, c);
    if st.lastParams != Some(c) {
      NavigationToOtherContextEnhances(st, Origin, c);
    }
    PublishedBatchRendersOnItsPage(store, Origin, c, other, batch);
  }
}

=== FILE: enrichment.dfy ===
/** `fetchBeatSaverData` (scoresaber-enhanced-bl-replays.user.js:730-770): look
    up every distinct song hash of a batch of normalised scores, index the
    metadata found by hash, and enrich each score with its map id, bpm,
    difficulty variant and maximum score. The enriched batch keeps the input's
    positions; a score without metadata leaves an empty slot. The batch is
    stored under the serialised query context. */
module Enrichment {
  import opened Js
  import opened Text
  import opened MaxScore
  import opened Scores
  import opened BeatSaver
  import opened QueryContext

  /** The `difficulties` table (lines 50-56): ScoreSaber difficulty code to BeatSaver difficulty name. */
  const Difficulties: map<int, string> :=
    map[1 := "Easy", 3 := "Normal", 5 := "Hard", 7 := "Expert", 9 := "ExpertPlus"]

  /** The table's name for a difficulty code; None for a missing code or one outside the table. */
  function DifficultyLabel(code: Option<int>): (r: Option<string>)
    ensures r.Some? <==> code.Some? && code.value in Difficulties
    ensures r.Some? ==> DifficultyCode(r.value) == code
  {
    if code.Some? && code.value in Difficulties then Some(Difficulties[code.value]) else None
  }

  /** The code a difficulty name stands for, read backwards through the table. */
  function DifficultyCode(level: string): Option<int> {
    if level == "Easy" then Some(1)
    else if level == "Normal" then Some(3)
    else if level == "Hard" then Some(5)
    else if level == "Expert" then Some(7)
    else if level == "ExpertPlus" then Some(9)
    else None
  }

  /** The table is a bijection between the five codes and the five labels. */
  lemma DifficultyLabelRoundTrip(code: int, level: string)
    ensures DifficultyLabel(Some(code)) == Some(level) <==> DifficultyCode(level) == Some(code)
  {
  }

  /** The map characteristic of a game mode: the first `Solo` is removed, then
      the first `OldDots`; a later occurrence of either stays. */
  function Characteristic(gameMode: Option<string>): (r: Option<string>)
    ensures r.None? <==> gameMode.None?
    ensures r.Some? ==> |r.value| <= |gameMode.value|
    ensures gameMode.Some? && !Contains(gameMode.value, "Solo") && !Contains(gameMode.value, "OldDots") ==> r == gameMode
  {
    if gameMode.None? then None else Some(RemoveFirst(RemoveFirst(gameMode.value, "Solo"), "OldDots"))
  }

  /** A `Solo` prefix is stripped; what remains is kept when it does not mention `OldDots`. */
  lemma CharacteristicOfSolo(c: string)
    requires !Contains(c, "OldDots")
    ensures Characteristic(Some("Solo" + c)) == Some(c)
  {
    RemoveLeading("Solo", c);
  }

  /** A `SoloOldDots` prefix, the naming of the old-dots variant maps, is stripped too. */
  lemma CharacteristicOfOldDots(c: string)
    ensures Characteristic(Some("Solo" + ("OldDots" + c))) == Some(c)
  {
    var rest := "OldDots" + c;
    assert RemoveFirst("Solo" + rest, "Solo") == rest by {
      RemoveLeading("Solo", rest);
    }
    RemoveLeading("OldDots", c);
  }

  /** `SoloOneSaber` keeps the `O` of its characteristic. */
  lemma CharacteristicOfOneSaber(mode: string)
    requires mode == "SoloOneSaber"
    ensures Characteristic(Some(mode)) == Some("OneSaber")
  {
    SoloMode(mode, "OneSaber");
  }

  /** An old-dots mode strips to the plain characteristic. */
  lemma CharacteristicOfOldDotsStandard(mode: string)
    requires mode == "SoloOldDotsStandard"
    ensures Characteristic(Some(mode)) == Some("Standard")
  {
    assert mode == "Solo" + ("OldDots" + "Standard");
    CharacteristicOfOldDots("Standard");
  }

  /** `Solo` followed by a name in which no `O` is followed by `l` strips to that name. */
  lemma SoloMode(mode: string, c: string)
    requires mode == "Solo" + c
    requires forall i :: 0 <= i < |c| && c[i] == 'O' ==> i + 1 < |c| && c[i + 1] != 'l'
    ensures Characteristic(Some(mode)) == Some(c)
  {
    NoOldDots(c);
    CharacteristicOfSolo(c);
  }

  /** A name in which no `O` is followed by `l` does not contain `OldDots`. */
  lemma NoOldDots(c: string)
    requires forall i :: 0 <= i < |c| && c[i] == 'O' ==> i + 1 < |c| && c[i + 1] != 'l'
    ensures !Contains(c, "OldDots")
  {
    forall j | 0 <= j <= |c|
      ensures !HasPrefixAt(c, "OldDots", j)
    {
      if j + 7 <= |c| {
        assert c[j..j + 7][0] == c[j] && c[j..j + 7][1] == c[j + 1];
      }
    }
  }

  predicate Matches(v: Variant, characteristic: string, level: string) {
    v.characteristic == Some(characteristic) && v.difficulty == Some(level)
  }

  /** Position of the first variant from `from` on that matches. */
  function FirstMatch(diffs: seq<Variant>, characteristic: string, level: string, from: nat): (r: Option<nat>)
    ensures r.Some? ==> from <= r.value < |diffs| && Matches(diffs[r.value], characteristic, level)
    ensures r.Some? ==> forall j :: from <= j < r.value ==> !Matches(diffs[j], characteristic, level)
    ensures r.None? ==> forall j :: from <= j < |diffs| ==> !Matches(diffs[j], characteristic, level)
    decreases |diffs| - from
  {
    if from >= |diffs| then None
    else if Matches(diffs[from], characteristic, level) then Some(from)
    else FirstMatch(diffs, characteristic, level, from + 1)
  }

  /** The first variant whose characteristic and difficulty name both equal the
      ones asked for, or None when there is none. */
  function FindVariant(diffs: seq<Variant>, characteristic: string, level: string): (r: Option<Variant>)
    ensures r.None? <==> forall j :: 0 <= j < |diffs| ==> !Matches(diffs[j], characteristic, level)
    ensures r.Some? ==> exists k :: (0 <= k < |diffs| && diffs[k] == r.value && Matches(r.value, characteristic, level)
      && forall j :: 0 <= j < k ==> !Matches(diffs[j], characteristic, level))
  {
    match FirstMatch(diffs, characteristic, level, 0)
    case None => None
    case Some(k) => Some(diffs[k])
  }

  /** What the script adds to a score: the map id, its bpm and the selected variant. */
  datatype BeatSaverInfo = BeatSaverInfo(id: string, bpm: real, diff: Option<Variant>)

  /** An enriched score: the score's fields, the maximum that replaces its own, and the map data. */
  datatype Enriched = Enriched(score: Score, maxScore: int, beatSaver: BeatSaverInfo)

  /** The variant picked for a score: only looked for when the characteristic is
      non-empty and the difficulty code is in the table, otherwise none. */
  function SelectVariant(s: Score, m: Meta): (r: Option<Variant>)
    ensures r.Some? ==> r.value in m.diffs
    ensures r.Some? ==> (TruthyString(Characteristic(s.difficulty.gameMode)) && DifficultyLabel(s.difficulty.difficulty).Some?
      && Matches(r.value, Characteristic(s.difficulty.gameMode).value, DifficultyLabel(s.difficulty.difficulty).value))
    ensures TruthyString(Characteristic(s.difficulty.gameMode)) && DifficultyLabel(s.difficulty.difficulty).Some? ==>
      r == FindVariant(m.diffs, Characteristic(s.difficulty.gameMode).value, DifficultyLabel(s.difficulty.difficulty).value)
    ensures TruthyString(Characteristic(s.difficulty.gameMode)) && DifficultyLabel(s.difficulty.difficulty).Some? ==>
      (r.None? <==> forall j :: 0 <= j < |m.diffs| ==>
        !Matches(m.diffs[j], Characteristic(s.difficulty.gameMode).value, DifficultyLabel(s.difficulty.difficulty).value))
  {
    var c := Characteristic(s.difficulty.gameMode);
    var l := DifficultyLabel(s.difficulty.difficulty);
    if TruthyString(c) && l.Some? then FindVariant(m.diffs, c.value, l.value) else None
  }

  /** The selected variant's note count, 0 without a variant or a count. */
  function NotesOf(diff: Option<Variant>): int {
    if diff.Some? && diff.value.notes.Some? then diff.value.notes.value else 0
  }

  /** One score of the batch: empty when its upper-cased hash has no metadata. */
  function EnrichScore(s: Score, index: map<string, Meta>): (r: Option<Enriched>)
    ensures r.None? <==> Key(s.hash) !in index
    ensures r.Some? ==> r.value.score == s
    ensures r.Some? ==> r.value.beatSaver.id == index[Key(s.hash)].id && r.value.beatSaver.bpm == index[Key(s.hash)].bpm
    ensures r.Some? ==> r.value.beatSaver.diff == SelectVariant(s, index[Key(s.hash)])
    ensures r.Some? && TruthyInt(s.maxScore) ==> r.value.maxScore == s.maxScore.value
    ensures r.Some? && !TruthyInt(s.maxScore) ==> r.value.maxScore == GetMaxScore(NotesOf(r.value.beatSaver.diff))
  {
    var key := Key(s.hash);
    if key !in index then None
    else
      var m := index[key];
      var diff := SelectVariant(s, m);
      var maxScore := if TruthyInt(s.maxScore) then s.maxScore.value else GetMaxScore(NotesOf(diff));
      Some(Enriched(s, maxScore, BeatSaverInfo(m.id, m.bpm, diff)))
  }

  /** The distinct hashes of a batch: the non-empty hashes, each once, in order
      of first appearance. */
  function DistinctHashes(scores: seq<Score>): (r: seq<string>)
    ensures forall i, j :: 0 <= i < j < |r| ==> r[i] != r[j]
    ensures forall i :: 0 <= i < |r| ==> r[i] != "" && exists k :: 0 <= k < |scores| && scores[k].hash == r[i]
    ensures forall k :: 0 <= k < |scores| && scores[k].hash != "" ==> scores[k].hash in r
    decreases |scores|
  {
    if |scores| == 0 then []
    else
      var init := scores[..|scores| - 1];
      var r := DistinctHashes(init);
      var h := scores[|scores| - 1].hash;
      assert forall k :: 0 <= k < |init| ==> init[k] == scores[k];
      if h == "" || h in r then r else r + [h]
  }

  /** No entry after position `i` carries the same hash. */
  predicate LastFor(results: seq<Option<Meta>>, i: nat)
    requires i < |results| && results[i].Some?
  {
    forall j :: i < j < |results| && results[j].Some? ==> results[j].value.hash != results[i].value.hash
  }

  /** The lookup answers folded into an object: the metadata found, keyed by
      its own hash; a later entry for a key wins. */
  function MetaIndex(results: seq<Option<Meta>>): (r: map<string, Meta>)
    ensures forall k :: k in r ==> r[k].hash == k && Some(r[k]) in results
    ensures forall i :: 0 <= i < |results| && results[i].Some? ==> results[i].value.hash in r
    decreases |results|
  {
    if |results| == 0 then map[]
    else
      var init := results[..|results| - 1];
      var r := MetaIndex(init);
      assert forall i :: 0 <= i < |init| ==> init[i] == results[i];
      match results[|results| - 1]
      case None => r
      case Some(m) => r[m.hash := m]
  }

  /** The entry indexed under a key is the last answer for it. */
  lemma {:induction false} MetaIndexLastWins(results: seq<Option<Meta>>, i: nat)
    requires i < |results| && results[i].Some? && LastFor(results, i)
    ensures MetaIndex(results)[results[i].value.hash] == results[i].value
    decreases |results|
  {
    var init := results[..|results| - 1];
    if i < |init| {
      assert init[i] == results[i];
      assert LastFor(init, i) by {
        forall j | i < j < |init| && init[j].Some?
          ensures init[j].value.hash != init[i].value.hash
        {
          assert init[j] == results[j];
        }
      }
      MetaIndexLastWins(init, i);
    }
  }

  /** The enriched batch: position `i` is EnrichScore of score `i`. */
  function Merge(scores: seq<Score>, index: map<string, Meta>): (r: seq<Option<Enriched>>)
    ensures |r| == |scores|
    ensures forall i :: 0 <= i < |scores| ==> r[i] == EnrichScore(scores[i], index)
  {
    seq(|scores|, i requires 0 <= i < |scores| => EnrichScore(scores[i], index))
  }

  /** The metadata index of a batch: the answers for its distinct hashes,
      keyed by their own hash. Each entry is the answer for one of the hashes. */
  function ResolvedIndex(scores: seq<Score>, resolved: string -> Option<Meta>): (r: map<string, Meta>)
    ensures forall k :: k in r ==> r[k].hash == k
    ensures forall k :: k in r ==> exists h :: h in DistinctHashes(scores) && resolved(h) == Some(r[k])
    ensures forall h :: h in DistinctHashes(scores) && resolved(h).Some? ==> resolved(h).value.hash in r
  {
    var hashes := DistinctHashes(scores);
    var results := seq(|hashes|, i requires 0 <= i < |hashes| => resolved(hashes[i]));
    var r := MetaIndex(results);
    forall k | k in r
      ensures exists h :: h in hashes && resolved(h) == Some(r[k])
    {
      var i :| 0 <= i < |results| && results[i] == Some(r[k]);
      assert hashes[i] in hashes;
    }
    forall h | h in hashes && resolved(h).Some?
      ensures resolved(h).value.hash in r
    {
      var i :| 0 <= i < |hashes| && hashes[i] == h;
      assert results[i] == resolved(h);
    }
    r
  }

  /** `fetchBeatSaverData(scores, params)` once every `byHash` call has
      settled; `resolved(h)` is what the call for hash `h` answered. Nothing
      is produced when the batch has no hash or no lookup found metadata;
      otherwise every position holds its score enriched from the index. */
  function FetchBeatSaverData(scores: seq<Score>, resolved: string -> Option<Meta>): (r: Option<seq<Option<Enriched>>>)
    ensures r.None? <==> forall h :: h in DistinctHashes(scores) ==> resolved(h).None?
    ensures r.Some? ==> |r.value| == |scores|
    ensures r.Some? ==> forall i :: 0 <= i < |scores| ==> r.value[i] == EnrichScore(scores[i], ResolvedIndex(scores, resolved))
  {
    var index := ResolvedIndex(scores, resolved);
    if |index| == 0 then
      assert forall h :: h in DistinctHashes(scores) ==> resolved(h).None?;
      None
    else
      Some(Merge(scores, index))
  }

  /** Every answer is metadata for the key of the hash asked for. */
  ghost predicate KeyedByHash(resolved: string -> Option<Meta>) {
    forall h :: resolved(h).Some? ==> resolved(h).value.hash == Key(h)
  }

  /** Spellings of one hash that differ only in letter case get the same answer. */
  ghost predicate SharedAcrossCase(resolved: string -> Option<Meta>) {
    forall h1, h2 :: Key(h1) == Key(h2) ==> resolved(h1) == resolved(h2)
  }

  /** The answers of the BeatSaver service, for a batch looked up against a
      consistent service state and settled with each key's request outcome,
      have both properties. */
  lemma {:induction false} ServiceAnswersQualify(s: Service, outcome: string -> FetchOutcome)
    requires Valid(s)
    ensures KeyedByHash(h => Answer(s, Some(h), outcome(Key(h))))
    ensures SharedAcrossCase(h => Answer(s, Some(h), outcome(Key(h))))
  {
    forall h1, h2 | Key(h1) == Key(h2)
      ensures Answer(s, Some(h1), outcome(Key(h1))) == Answer(s, Some(h2), outcome(Key(h2)))
    {
      AnswerSharedAcrossCase(s, h1, h2, outcome(Key(h1)));
    }
  }

  /** A score whose own hash was found is enriched with exactly that
      metadata's map id and bpm. */
  lemma {:induction false} ResolvedScoreIsEnriched(scores: seq<Score>, resolved: string -> Option<Meta>, i: nat)
    requires KeyedByHash(resolved) && SharedAcrossCase(resolved)
    requires i < |scores| && scores[i].hash != ""
    requires resolved(scores[i].hash).Some?
    ensures FetchBeatSaverData(scores, resolved).Some?
    ensures FetchBeatSaverData(scores, resolved).value[i].Some?
    ensures FetchBeatSaverData(scores, resolved).value[i].value.beatSaver.id == resolved(scores[i].hash).value.id
    ensures FetchBeatSaverData(scores, resolved).value[i].value.beatSaver.bpm == resolved(scores[i].hash).value.bpm
  {
    var index := ResolvedIndex(scores, resolved);
    var key := Key(scores[i].hash);
    assert scores[i].hash in DistinctHashes(scores);
    assert key in index;
    var h :| h in DistinctHashes(scores) && resolved(h) == Some(index[key]);
    assert Key(h) == key;
    assert index[key] == resolved(scores[i].hash).value;
  }

  /** On the service itself: a score whose hash the service answers with
      metadata is enriched with that metadata's map id and bpm. */
  lemma {:induction false} ServiceScoreIsEnriched(s: Service, outcome: string -> FetchOutcome,
                                                  scores: seq<Score>, i: nat)
    requires Valid(s)
    requires i < |scores| && scores[i].hash != ""
    requires Answer(s, Some(scores[i].hash), outcome(Key(scores[i].hash))).Some?
    ensures var batch := FetchBeatSaverData(scores, h => Answer(s, Some(h), outcome(Key(h))));
      var m := Answer(s, Some(scores[i].hash), outcome(Key(scores[i].hash))).value;
      && batch.Some? && batch.value[i].Some?
      && batch.value[i].value.beatSaver.id == m.id && batch.value[i].value.beatSaver.bpm == m.bpm
  {
    var resolved := h => Answer(s, Some(h), outcome(Key(h)));
    ServiceAnswersQualify(s, outcome);
    ResolvedScoreIsEnriched(scores, resolved, i);
  }

  /** The batch store `scoresCache`, keyed by the serialised context. */
  type BatchStore = map<string, seq<Option<Enriched>>>

  /** A produced batch is stored under the serialised context, replacing any earlier one there. */
  function Publish(store: BatchStore, params: Context, batch: Option<seq<Option<Enriched>>>): (r: BatchStore)
    ensures batch.None? ==> r == store
    ensures batch.Some? ==> ParamsHash(Some(params)) in r && r[ParamsHash(Some(params))] == batch.value
    ensures forall c :: c != params && ParamsHash(Some(c)) in store ==>
      ParamsHash(Some(c)) in r && r[ParamsHash(Some(c))] == store[ParamsHash(Some(c))]
  {
    if batch.None? then store
    else
      assert forall c :: c != params ==> ParamsHash(Some(c)) != ParamsHash(Some(params)) by {
        forall c | c != params
          ensures ParamsHash(Some(c)) != ParamsHash(Some(params))
        {
          ParamsHashInjective(Some(c), Some(params));
        }
      }
      store[ParamsHash(Some(params)) := batch.value]
  }

  /** The ExpertPlus Standard variant is the one chosen for a SoloStandard score of code 9. */
  lemma ExampleVariant(s: Score, v: Variant, m: Meta)
    requires s.difficulty == DifficultyInfo(Some(9), Some("SoloStandard"))
    requires v == Variant(Some("Standard"), Some("ExpertPlus"), Some(300))
    requires m.diffs == [v]
    ensures SelectVariant(s, m) == Some(v)
  {
    assert Characteristic(s.difficulty.gameMode) == Some("Standard") by {
      SoloMode(s.difficulty.gameMode.value, "Standard");
    }
    assert DifficultyLabel(s.difficulty.difficulty) == Some("ExpertPlus");
    assert Matches(v, "Standard", "ExpertPlus");
    assert FirstMatch(m.diffs, "Standard", "ExpertPlus", 0) == Some(0);
  }

  /** The worked example: an ExpertPlus standard score without a leaderboard
      maximum, on a map whose matching variant has 300 notes. */
  lemma ExampleEnrichment(s: Score, v: Variant, m: Meta)
    requires s == Score(0, "ABCD1234", DifficultyInfo(Some(9), Some("SoloStandard")), 950000, 950000, None, 1.0, None, None)
    requires v == Variant(Some("Standard"), Some("ExpertPlus"), Some(300))
    requires m == Meta("ABCD1234", "1a2b", 120.0, [v])
    ensures EnrichScore(s, map[s.hash := m]) == Some(Enriched(s, 268755, BeatSaverInfo(m.id, m.bpm, Some(v))))
  {
    assert Key(s.hash) == s.hash by {
      ToUpperKeepsUpper(s.hash);
    }
    ExampleVariant(s, v, m);
    assert GetMaxScore(300) == 268755;
  }
}

=== FILE: js.dfy ===
/** JavaScript values the script relies on: `null`/`undefined` as an Option,
    and the truthiness tests (`!x`, `x ? a : b`) it applies to strings and numbers. */
module Js {

  /** A value that may be `null` or `undefined` (both collapse to None). */
  datatype Option<+T> = None | Some(value: T) {

    /** `x ?? fallback` */
    function OrElse(fallback: T): T {
      match this
      case Some(v) => v
      case None => fallback
    }
  }

  /** A string is truthy when present and non-empty. */
  predicate TruthyString(s: Option<string>) {
    s.Some? && |s.value| > 0
  }

  /** An integer is truthy when present and non-zero. */
  predicate TruthyInt(n: Option<int>) {
    n.Some? && n.value != 0
  }

  /** A number is truthy when present and non-zero (NaN is not modelled). */
  predicate TruthyReal(x: Option<real>) {
    x.Some? && x.value != 0.0
  }

  /** Relational comparison `x <= bound` with `x` possibly null: null converts to 0. */
  predicate AtMost(x: Option<int>, bound: int) {
    x.OrElse(0) <= bound
  }
}

=== FILE: max_score.dfy ===
/** The maximum attainable score of a map from its note count
    (scoresaber-enhanced-bl-replays.user.js:118-128). Each note is worth at most
    115 points, multiplied by the combo multiplier in force when it is hit: 1x for
    the first note, 2x for notes 2-5, 4x for notes 6-13 and 8x from note 14 on. */
module MaxScore {

  /** `maxScorePerBlock`, the default of the second parameter. */
  const PointsPerNote: int := 115

  function Min(a: int, b: int): int {
    if a <= b then a else b
  }

  /** `getMaxScore(blocks)`, the tiered sum exactly as the script adds it up.
      `Math.floor` is the identity here because every term is an integer.
      The contract gives the closed form on each tier. */
  function GetMaxScore(blocks: int): (r: int)
    ensures blocks <= 1 ==> r == 115 * blocks
    ensures 1 <= blocks <= 5 ==> r == 230 * blocks - 115
    ensures 5 <= blocks <= 13 ==> r == 460 * blocks - 1265
    ensures blocks >= 13 ==> r == 920 * blocks - 7245
  {
    (if blocks >= 14 then 8 * PointsPerNote * (blocks - 13) else 0)
    + (if blocks >= 6 then 4 * PointsPerNote * (Min(blocks, 13) - 5) else 0)
    + (if blocks >= 2 then 2 * PointsPerNote * (Min(blocks, 5) - 1) else 0)
    + Min(blocks, 1) * PointsPerNote
  }

  /** Combo multiplier in force on the `i`-th note (1-based) of a full combo. */
  function ComboMultiplier(i: nat): (m: nat)
    requires i >= 1
    ensures m in {1, 2, 4, 8}
  {
    if i == 1 then 1 else if i <= 5 then 2 else if i <= 13 then 4 else 8
  }

  /** Reference definition: a full combo over `n` notes, note by note. */
  function FullComboScore(n: nat): nat {
    if n == 0 then 0 else FullComboScore(n - 1) + PointsPerNote * ComboMultiplier(n)
  }

  /** The tiered formula is the note-by-note full-combo sum. */
  lemma {:induction false} GetMaxScoreIsFullComboScore(n: nat)
    ensures GetMaxScore(n) == FullComboScore(n)
  {
    if n > 0 {
      GetMaxScoreIsFullComboScore(n - 1);
    }
  }

  /** Each additional note raises the maximum by at least 115 points. */
  lemma {:induction false} FullComboScoreGrows(a: nat, b: nat)
    requires a <= b
    ensures FullComboScore(b) >= FullComboScore(a) + PointsPerNote * (b - a)
    decreases b - a
  {
    if a < b {
      FullComboScoreGrows(a, b - 1);
    }
  }

  /** Monotonicity over note counts: more notes never lower the maximum score. */
  lemma MaxScoreMonotone(a: nat, b: nat)
    requires a <= b
    ensures GetMaxScore(a) <= GetMaxScore(b)
    ensures a < b ==> GetMaxScore(a) < GetMaxScore(b)
  {
    GetMaxScoreIsFullComboScore(a);
    GetMaxScoreIsFullComboScore(b);
    FullComboScoreGrows(a, b);
  }

  /** Values at the tier boundaries. */
  lemma MaxScoreBoundaries()
    ensures GetMaxScore(0) == 0
    ensures GetMaxScore(1) == 115
    ensures GetMaxScore(2) == 345
    ensures GetMaxScore(5) == 1035
    ensures GetMaxScore(6) == 1495
    ensures GetMaxScore(13) == 4715
    ensures GetMaxScore(14) == 5635
  {
  }
}

=== FILE: query_context.dfy ===
/** The query context `{playerId, page, sort}` built by `getUrlData`
    (scoresaber-enhanced-bl-replays.user.js:71-81) and its serialised form
    `getParamsHash` = `JSON.stringify` (line 67), which the script uses both to
    compare contexts and as the key of the enriched-batch store. */
module QueryContext {
  import opened Js
  import opened Text

  /** A player id is what `(\d+)` captures. */
  type PlayerId = s: string | IsDigitString(s) witness "0"

  datatype Sort = Top | Recent

  datatype Context = Context(playerId: PlayerId, page: nat, sort: Sort)

  function SortName(s: Sort): string {
    match s
    case Top => "top"
    case Recent => "recent"
  }

  const NullJson: string := "null"
  const IdOpen: string := "{\"playerId\":\""
  const PageOpen: string := "\",\"page\":"
  const SortOpen: string := ",\"sort\":\""
  const Close: string := "\"}"

  /** `JSON.stringify(params)`: fields in the order `getUrlData` creates them; a
      digit-only player id needs no escaping. `null` stands for no context.
      The parser below reads every context back from it. */
  function ParamsHash(c: Option<Context>): (r: string)
    ensures ParseParamsHash(r) == Some(c)
  {
    match c
    case None => NullJson
    case Some(x) =>
      var t := x.playerId + (PageOpen + (NatToString(x.page) + (SortOpen + (SortName(x.sort) + Close))));
      var s := IdOpen + t;
      assert s != NullJson by {
        assert s[0] == '{';
      }
      ReadLiteral(s, 0, IdOpen, t);
      assert ParseParamsHash(s) == ParseFromId(t);
      ParseFromIdRoundTrip(x);
      s
  }

  /** Reads a context back from its serialised form, one field at a time. */
  function ParseParamsHash(s: string): Option<Option<Context>> {
    if s == NullJson then Some(None)
    else if HasPrefixAt(s, IdOpen, 0) then ParseFromId(s[|IdOpen|..])
    else None
  }

  function ParseFromId(s: string): Option<Option<Context>> {
    var n := DigitRun(s);
    if n > 0 && HasPrefixAt(s, PageOpen, n) then ParseFromPage(s[..n], s[n + |PageOpen|..]) else None
  }

  function ParseFromPage(id: string, s: string): Option<Option<Context>>
    requires IsDigitString(id)
  {
    var n := DigitRun(s);
    if n > 0 && HasPrefixAt(s, SortOpen, n) then ParseSort(id, DigitsValue(s[..n]), s[n + |SortOpen|..]) else None
  }

  function ParseSort(id: string, page: nat, rest: string): Option<Option<Context>>
    requires IsDigitString(id)
  {
    if rest == SortName(Recent) + Close then Some(Some(Context(id, page, Recent)))
    else if rest == SortName(Top) + Close then Some(Some(Context(id, page, Top)))
    else None
  }

  lemma ParseSortRoundTrip(x: Context)
    ensures ParseSort(x.playerId, x.page, SortName(x.sort) + Close) == Some(Some(x))
  {
  }

  lemma ParseFromPageRoundTrip(x: Context)
    ensures ParseFromPage(x.playerId, NatToString(x.page) + (SortOpen + (SortName(x.sort) + Close))) == Some(Some(x))
  {
    var ps := NatToString(x.page);
    var t := SortOpen + (SortName(x.sort) + Close);
    ReadDigits(ps + t, 0, ps, t);
    ReadLiteral(ps + t, |ps|, SortOpen, SortName(x.sort) + Close);
    assert (ps + t)[..|ps|] == ps;
    NatToStringRoundTrip(x.page);
    ParseSortRoundTrip(x);
  }

  lemma ParseFromIdRoundTrip(x: Context)
    ensures ParseFromId(x.playerId + (PageOpen + (NatToString(x.page) + (SortOpen + (SortName(x.sort) + Close))))) == Some(Some(x))
  {
    var id: string := x.playerId;
    var rest := NatToString(x.page) + (SortOpen + (SortName(x.sort) + Close));
    var t := PageOpen + rest;
    ReadDigits(id + t, 0, id, t);
    ReadLiteral(id + t, |id|, PageOpen, rest);
    assert (id + t)[..|id|] == id;
    ParseFromPageRoundTrip(x);
  }

  /** Comparing serialised contexts is comparing the contexts themselves:
      `JSON.stringify` equality is structural equality. */
  lemma ParamsHashInjective(a: Option<Context>, b: Option<Context>)
    ensures ParamsHash(a) == ParamsHash(b) <==> a == b
  {
  }
}

=== FILE: replay.dfy ===
/** The replay lookup of the score renderer
    (scoresaber-enhanced-bl-replays.user.js:411-700): a BeatLeader score is
    looked up under a composite key, first in the persistent store and then
    through the BeatLeader API; the row then shows a BeatLeader replay, a
    fallback replay, or nothing. The miss improvement shown next to a score is
    read from the page's "Missed: n" and "Bad Cut: n" titles. */
module Replay {
  import opened Js
  import opened Text
  import opened MaxScore
  import opened Scores
  import opened BeatSaver
  import opened Enrichment
  import opened QueryContext

  /** The replay mode of a game mode: the `modes` table at lines 58-61, and Standard for a mode outside it. */
  function ModeOf(gameMode: Option<string>): (r: string)
    ensures r == "Standard" || r == "Lawless"
    ensures r == "Lawless" <==> gameMode == Some("SoloLawless")
  {
    if gameMode == Some("SoloStandard") then "Standard"
    else if gameMode == Some("SoloLawless") then "Lawless"
    else "Standard"
  }

  /** For the two solo modes the replay mode is the map characteristic the
      enrichment derives from the same game mode. */
  lemma ModeAgreesWithCharacteristic(gameMode: string)
    requires gameMode == "SoloStandard" || gameMode == "SoloLawless"
    ensures Characteristic(Some(gameMode)) == Some(ModeOf(Some(gameMode)))
  {
    if gameMode == "SoloStandard" {
      SoloMode(gameMode, "Standard");
    } else {
      SoloMode(gameMode, "Lawless");
    }
  }

  /** `generateKey`: the five parts written one after the other, the score in decimal. */
  function GenerateKey(playerId: string, hash: string, difficulty: string, modifiedScore: int, mode: string): (r: string)
    ensures |r| == |playerId| + |hash| + |difficulty| + |IntToString(modifiedScore)| + |mode|
    ensures r[..|playerId|] == playerId && r[|r| - |mode|..] == mode
  {
    playerId + (hash + (difficulty + (IntToString(modifiedScore) + mode)))
  }

  predicate NoDigit(s: string) {
    forall i :: 0 <= i < |s| ==> !IsDigit(s[i])
  }

  /** Length of the longest prefix of `s` without a digit. */
  function NonDigitRun(s: string): (n: nat)
    ensures n <= |s|
    ensures forall i :: 0 <= i < n ==> !IsDigit(s[i])
    ensures n < |s| ==> IsDigit(s[n])
  {
    if |s| == 0 || IsDigit(s[0]) then 0 else 1 + NonDigitRun(s[1..])
  }

  lemma {:induction false} NonDigitRunOf(d: string, t: string)
    requires NoDigit(d)
    requires |t| > 0 && IsDigit(t[0])
    ensures NonDigitRun(d + t) == |d|
    decreases |d|
  {
    if |d| > 0 {
      assert (d + t)[1..] == d[1..] + t;
      NonDigitRunOf(d[1..], t);
    } else {
      assert d + t == t;
    }
  }

  /** The difficulty, score and mode after a known player and hash are read back from the key. */
  lemma {:induction false} KeyTailDecodes(d1: string, s1: nat, m1: string, d2: string, s2: nat, m2: string)
    requires NoDigit(d1) && NoDigit(d2)
    requires (|m1| == 0 || !IsDigit(m1[0])) && (|m2| == 0 || !IsDigit(m2[0]))
    requires d1 + (NatToString(s1) + m1) == d2 + (NatToString(s2) + m2)
    ensures d1 == d2 && s1 == s2 && m1 == m2
  {
    var n1 := NatToString(s1);
    var n2 := NatToString(s2);
    var t := d1 + (n1 + m1);
    NonDigitRunOf(d1, n1 + m1);
    NonDigitRunOf(d2, n2 + m2);
    assert d1 == t[..|d1|] && d2 == t[..|d2|];
    var rest := t[|d1|..];
    assert rest == n1 + m1 && rest == n2 + m2;
    ReadDigits(rest, 0, n1, m1);
    ReadDigits(rest, 0, n2, m2);
    NatToStringRoundTrip(s1);
    NatToStringRoundTrip(s2);
  }

  /** Lookups of one player and one song under the key are told apart: with
      player ids and hashes of the lengths the key was built from, difficulty
      names without digits, non-negative scores and modes not starting with a
      digit, two keys are equal exactly when all five parts are. */
  lemma {:induction false} GenerateKeyInjective(p1: string, h1: string, d1: string, s1: nat, m1: string,
                                                p2: string, h2: string, d2: string, s2: nat, m2: string)
    requires |p1| == |p2| && |h1| == |h2|
    requires NoDigit(d1) && NoDigit(d2)
    requires (|m1| == 0 || !IsDigit(m1[0])) && (|m2| == 0 || !IsDigit(m2[0]))
    ensures GenerateKey(p1, h1, d1, s1, m1) == GenerateKey(p2, h2, d2, s2, m2) <==>
      p1 == p2 && h1 == h2 && d1 == d2 && s1 == s2 && m1 == m2
  {
    if GenerateKey(p1, h1, d1, s1, m1) == GenerateKey(p2, h2, d2, s2, m2) {
      var t1 := d1 + (NatToString(s1) + m1);
      var t2 := d2 + (NatToString(s2) + m2);
      assert IntToString(s1) == NatToString(s1) && IntToString(s2) == NatToString(s2);
      SplitEqualLengths(p1, h1 + t1, p2, h2 + t2);
      SplitEqualLengths(h1, t1, h2, t2);
      KeyTailDecodes(d1, s1, m1, d2, s2, m2);
    }
  }

  lemma SplitEqualLengths(a1: string, b1: string, a2: string, b2: string)
    requires |a1| == |a2| && a1 + b1 == a2 + b2
    ensures a1 == a2 && b1 == b2
  {
    assert a1 == (a1 + b1)[..|a1|] && a2 == (a2 + b2)[..|a2|];
    assert b1 == (a1 + b1)[|a1|..] && b2 == (a2 + b2)[|a2|..];
  }

  /** The score improvement BeatLeader reports against the player's previous score. */
  datatype Improvement = Improvement(accuracy: real, accLeft: real, accRight: real, missedNotes: int, badCuts: int)

  /** A BeatLeader score record; the last two fields are not kept. */
  datatype BlScore = BlScore(
    id: int, accLeft: Option<real>, accRight: Option<real>, accuracy: real, fcAccuracy: Option<real>,
    badCuts: int, missedNotes: int, bombCuts: int, wallHit: int, pauses: Option<int>,
    scoreImprovement: Improvement, modifiedScore: int, timeset: string)

  /** What `extractRequiredData` keeps of a record. */
  datatype Summary = Summary(
    accLeft: Option<real>, accRight: Option<real>, id: int, accuracy: real, fcAccuracy: Option<real>,
    badCuts: int, missedNotes: int, bombCuts: int, wallHit: int, pauses: Option<int>,
    scoreImprovement: Improvement)

  function ExtractRequiredData(b: BlScore): (r: Summary)
    ensures r.id == b.id && r.scoreImprovement == b.scoreImprovement
    ensures r.missedNotes == b.missedNotes && r.badCuts == b.badCuts
    ensures r.accuracy == b.accuracy && r.fcAccuracy == b.fcAccuracy && r.pauses == b.pauses
    ensures r.accLeft == b.accLeft && r.accRight == b.accRight && r.bombCuts == b.bombCuts && r.wallHit == b.wallHit
  {
    Summary(b.accLeft, b.accRight, b.id, b.accuracy, b.fcAccuracy, b.badCuts, b.missedNotes,
            b.bombCuts, b.wallHit, b.pauses, b.scoreImprovement)
  }

  /** The persistent store behind `GM_getValue`/`GM_setValue`. */
  type ReplayStore = map<string, Summary>

  /** The API call: it fails (network error, non-ok status, unreadable
      body) or answers the player's matching scores, newest first. */
  datatype BlResponse = Failed | Answered(data: seq<BlScore>)

  /** The promise rejects, resolves to null, or resolves to a summary. */
  datatype LookupResult = Rejection | Absent | Found(summary: Summary)

  datatype Lookup = Lookup(store: ReplayStore, result: LookupResult)

  /** `fetchOrGetBeatLeaderScoreData`: a stored summary is answered without
      asking the API (`response` is then never consulted); otherwise a failure
      rejects, an empty answer resolves to null and stores nothing, and the
      first record is summarised, stored and answered. No other key changes. */
  function FetchOrGet(store: ReplayStore, key: string, response: BlResponse): (r: Lookup)
    ensures key in store ==> r == Lookup(store, Found(store[key]))
    ensures key !in store && response.Failed? ==> r == Lookup(store, Rejection)
    ensures key !in store && response.Answered? && |response.data| == 0 ==> r == Lookup(store, Absent)
    ensures key !in store && response.Answered? && |response.data| > 0 ==>
      r.result == Found(ExtractRequiredData(response.data[0])) && r.store == store[key := r.result.summary]
    ensures r.result.Found? ==> key in r.store && r.store[key] == r.result.summary
    ensures forall k :: k != key ==> (k in r.store <==> k in store)
    ensures forall k :: k != key && k in store ==> r.store[k] == store[k]
  {
    if key in store then Lookup(store, Found(store[key]))
    else match response
      case Failed => Lookup(store, Rejection)
      case Answered(data) =>
        if |data| == 0 then Lookup(store, Absent)
        else
          var summary := ExtractRequiredData(data[0]);
          Lookup(store[key := summary], Found(summary))
  }

  /** Once a summary is found, every later lookup of the key answers it,
      whatever the API would say. */
  lemma FoundIsKept(store: ReplayStore, key: string, first: BlResponse, later: BlResponse)
    requires FetchOrGet(store, key, first).result.Found?
    ensures FetchOrGet(FetchOrGet(store, key, first).store, key, later) == FetchOrGet(store, key, first)
  {
  }

  /** A lookup that found nothing or failed leaves no trace: the next one asks the API again. */
  lemma MissIsRetried(store: ReplayStore, key: string, first: BlResponse, later: BlResponse)
    requires !FetchOrGet(store, key, first).result.Found?
    ensures FetchOrGet(FetchOrGet(store, key, first).store, key, later) == FetchOrGet(store, key, later)
  {
  }

  /** What the row shows: a BeatLeader replay of a score id, the fallback
      replay link, or no replay button. */
  datatype Shown = BeatLeaderReplay(scoreId: int) | FallbackReplay | NoReplay

  /** The `then` handler: a summary gives its replay; null gives the fallback
      when the score has pp and a rank of at most 500 (a null rank compares as
      0); a rejected lookup never reaches the handler. */
  function Classify(result: LookupResult, s: Score): (r: Shown)
    ensures r.BeatLeaderReplay? <==> result.Found?
    ensures r.BeatLeaderReplay? ==> r.scoreId == result.summary.id
    ensures r.FallbackReplay? <==> result.Absent? && TruthyReal(s.pp) && AtMost(s.rank, 500)
  {
    match result
    case Found(summary) => BeatLeaderReplay(summary.id)
    case Absent => if TruthyReal(s.pp) && AtMost(s.rank, 500) then FallbackReplay else NoReplay
    case Rejection => NoReplay
  }

  /** Ranked scores qualify for the fallback even without a rank, and never beyond 500. */
  lemma FallbackRankBound(s: Score)
    requires TruthyReal(s.pp)
    ensures s.rank.None? ==> Classify(Absent, s) == FallbackReplay
    ensures s.rank.Some? && s.rank.value > 500 ==> Classify(Absent, s) == NoReplay
    ensures s.rank.Some? && s.rank.value <= 500 ==> Classify(Absent, s) == FallbackReplay
  {
  }

  /** A null difficulty name is written as `null` when concatenated. */
  function DifficultyText(d: Option<string>): string {
    d.OrElse("null")
  }

  /** The key a row is looked up under. */
  function RowKey(params: Context, e: Enriched): string
    requires e.beatSaver.diff.Some?
  {
    GenerateKey(params.playerId, e.score.hash, DifficultyText(e.beatSaver.diff.value.difficulty),
                e.score.modifiedScore, ModeOf(e.score.difficulty.gameMode))
  }

  /** A row is skipped when its batch slot is empty or its maximum or base
      score is zero (the guard at line 351), and when its modified score is
      zero (line 480); reading the variant's difficulty throws when the score
      has no variant; otherwise the row is looked up and classified. */
  datatype Row = Skipped | Throws | Looked(store: ReplayStore, shown: Shown)

  /** The row guard at line 351: the slot holds a score with a non-zero maximum and base score. */
  predicate HasScoreData(slot: Option<Enriched>) {
    slot.Some? && slot.value.maxScore != 0 && slot.value.score.baseScore != 0
  }

  function ReplayRow(params: Context, slot: Option<Enriched>, store: ReplayStore, response: BlResponse): (r: Row)
    ensures r.Skipped? <==> !HasScoreData(slot) || slot.value.score.modifiedScore == 0
    ensures r.Throws? <==> HasScoreData(slot) && slot.value.score.modifiedScore != 0 && slot.value.beatSaver.diff.None?
    ensures r.Looked? ==> HasScoreData(slot) && r.store == FetchOrGet(store, RowKey(params, slot.value), response).store
    ensures r.Looked? ==>
      r.shown == Classify(FetchOrGet(store, RowKey(params, slot.value), response).result, slot.value.score)
  {
    if !HasScoreData(slot) || slot.value.score.modifiedScore == 0 then Skipped
    else if slot.value.beatSaver.diff.None? then Throws
    else
      var e := slot.value;
      var l := FetchOrGet(store, RowKey(params, e), response);
      Looked(l.store, Classify(l.result, e.score))
  }

  /** The rows a loop gets through: every row up to and including the first
      that throws, which ends the loop. */
  function UpToFirstThrow(rows: seq<Row>): (r: seq<Row>)
    ensures |r| <= |rows| && r == rows[..|r|]
    ensures forall k :: 0 <= k < |r| - 1 ==> !r[k].Throws?
    ensures forall k :: 0 <= k < |rows| && rows[k].Throws? ==> |r| <= k + 1
    ensures |r| < |rows| ==> |r| > 0 && r[|r| - 1].Throws?
    ensures (forall k :: 0 <= k < |rows| ==> !rows[k].Throws?) ==> r == rows
  {
    if |rows| == 0 then []
    else if rows[0].Throws? then [rows[0]]
    else
      var rest := UpToFirstThrow(rows[1..]);
      assert forall k :: 1 <= k < |rows| ==> rows[k] == rows[1..][k - 1];
      [rows[0]] + rest
  }

  /** The row loop at lines 348-701: one row per table item, the item's slot
      of the batch and the answer its lookup would get, in page order. The
      loop is a synchronous `forEach`: a row reads the store before its
      lookup's first `await` (lines 460-465) and writes only after it (line
      474), so every row of a pass reads the store as the pass found it. A
      row that throws ends the loop, so no later row is looked up. */
  function RowsPass(params: Context, slots: seq<Option<Enriched>>, store: ReplayStore,
                    responses: seq<BlResponse>): (r: seq<Row>)
    requires |responses| == |slots|
    ensures |r| <= |slots|
    ensures forall k :: 0 <= k < |r| ==> r[k] == ReplayRow(params, slots[k], store, responses[k])
    ensures forall k :: 0 <= k < |slots| && ReplayRow(params, slots[k], store, responses[k]).Throws? ==>
      |r| <= k + 1
    ensures |r| < |slots| ==> |r| > 0 && r[|r| - 1].Throws?
    ensures (forall k :: 0 <= k < |slots| ==> !ReplayRow(params, slots[k], store, responses[k]).Throws?) ==>
      |r| == |slots|
  {
    var rows := seq(|slots|, k requires 0 <= k < |slots| => ReplayRow(params, slots[k], store, responses[k]));
    UpToFirstThrow(rows)
  }

  /** A score on a map without a leaderboard maximum and without a matching
      variant gets a zero maximum, so its row is skipped before any lookup. */
  lemma {:induction false} UnmatchedUnrankedRowIsSkipped(params: Context, s: Score, index: map<string, Meta>,
                                                         store: ReplayStore, response: BlResponse)
    requires Key(s.hash) in index
    requires !TruthyInt(s.maxScore)
    requires SelectVariant(s, index[Key(s.hash)]).None?
    ensures EnrichScore(s, index).Some? && EnrichScore(s, index).value.maxScore == 0
    ensures ReplayRow(params, EnrichScore(s, index), store, response) == Skipped
  {
    assert NotesOf(None) == 0;
    assert GetMaxScore(0) == 0;
  }

  /** For an enriched score the key carries the table's difficulty name for
      the score's difficulty code. */
  lemma RowKeyUsesTableName(params: Context, s: Score, index: map<string, Meta>)
    requires Key(s.hash) in index && SelectVariant(s, index[Key(s.hash)]).Some?
    ensures EnrichScore(s, index).Some? && EnrichScore(s, index).value.beatSaver.diff.Some?
    ensures DifficultyLabel(s.difficulty.difficulty).Some?
    ensures RowKey(params, EnrichScore(s, index).value) ==
      GenerateKey(params.playerId, s.hash, DifficultyLabel(s.difficulty.difficulty).value, s.modifiedScore,
                  ModeOf(s.difficulty.gameMode))
  {
  }

  const MissedLabel: string := "Missed: "
  const BadCutLabel: string := "Bad Cut: "

  /** The marker followed by a digit run, tried at position `i`: the value of the longest digit run after it. */
  function NumberAt(marker: string, t: string, i: nat): (r: Option<nat>)
  {
    if HasPrefixAt(t, marker, i) then
      var rest := t[i + |marker|..];
      var n := DigitRun(rest);
      if n > 0 then
        assert forall k :: 0 <= k < n ==> rest[..n][k] == rest[k];
        Some(DigitsValue(rest[..n]))
      else None
    else None
  }

  function NumberFinder(marker: string): (string, nat) -> Option<nat> {
    (t: string, i: nat) => NumberAt(marker, t, i)
  }

  /** The number read after the leftmost occurrence of the marker that is
      followed by a digit. */
  function NumberAfter(title: string, marker: string): (r: Option<nat>)
    ensures r.None? <==> forall i :: 0 <= i <= |title| ==> NumberAt(marker, title, i).None?
    ensures forall k :: (0 <= k <= |title| && NumberAt(marker, title, k).Some?
      && (forall j :: 0 <= j < k ==> NumberAt(marker, title, j).None?)) ==> r == NumberAt(marker, title, k)
  {
    assert forall i :: 0 <= i <= |title| ==> NumberFinder(marker)(title, i) == NumberAt(marker, title, i);
    match FirstSome(title, 0, NumberFinder(marker))
    case None => None
    case Some((_, v)) => Some(v)
  }

  /** `extractValuesFromTitle`: missed notes and bad cuts, 0 when absent. */
  function ExtractValuesFromTitle(title: string): (r: (nat, nat))
    ensures (forall i :: 0 <= i <= |title| ==> NumberAt(MissedLabel, title, i).None?) ==> r.0 == 0
    ensures (forall i :: 0 <= i <= |title| ==> NumberAt(BadCutLabel, title, i).None?) ==> r.1 == 0
    ensures forall k :: (0 <= k <= |title| && NumberAt(MissedLabel, title, k).Some?
      && (forall j :: 0 <= j < k ==> NumberAt(MissedLabel, title, j).None?)) ==> r.0 == NumberAt(MissedLabel, title, k).value
    ensures forall k :: (0 <= k <= |title| && NumberAt(BadCutLabel, title, k).Some?
      && (forall j :: 0 <= j < k ==> NumberAt(BadCutLabel, title, j).None?)) ==> r.1 == NumberAt(BadCutLabel, title, k).value
  {
    (NumberAfter(title, MissedLabel).OrElse(0), NumberAfter(title, BadCutLabel).OrElse(0))
  }

  /** The title ScoreSaber shows for a play with misses. */
  function MissTitle(missed: nat, sep: string, badCuts: nat): string {
    MissedLabel + (NatToString(missed) + (sep + (BadCutLabel + NatToString(badCuts))))
  }

  predicate NoLetterB(s: string) {
    forall i :: 0 <= i < |s| ==> s[i] != 'B'
  }

  /** Reads a number written right after a marker at position `i`. */
  lemma NumberAtWritten(t: string, i: nat, marker: string, n: nat, tail: string)
    requires i <= |t| && t[i..] == marker + (NatToString(n) + tail)
    requires |tail| == 0 || !IsDigit(tail[0])
    ensures NumberAt(marker, t, i) == Some(n)
  {
    ReadLiteral(t, i, marker, NatToString(n) + tail);
    var rest := t[i + |marker|..];
    ReadDigits(rest, 0, NatToString(n), tail);
    assert rest[..|NatToString(n)|] == NatToString(n);
    NatToStringRoundTrip(n);
  }

  /** The missed-note count is read from the start of the title. */
  lemma MissedReadBack(missed: nat, sep: string, badCuts: nat)
    requires |sep| == 0 || !IsDigit(sep[0])
    ensures NumberAfter(MissTitle(missed, sep, badCuts), MissedLabel) == Some(missed)
  {
    var t := MissTitle(missed, sep, badCuts);
    var tail := sep + (BadCutLabel + NatToString(badCuts));
    assert tail[0] == (if |sep| == 0 then 'B' else sep[0]);
    NumberAtWritten(t, 0, MissedLabel, missed, tail);
  }

  /** The bad-cut count is read after the first `B` of the title, which starts its marker. */
  lemma BadCutReadBack(missed: nat, sep: string, badCuts: nat)
    requires NoLetterB(sep)
    ensures NumberAfter(MissTitle(missed, sep, badCuts), BadCutLabel) == Some(badCuts)
  {
    var t := MissTitle(missed, sep, badCuts);
    var nm := NatToString(missed);
    var k := |MissedLabel| + |nm| + |sep|;
    assert t[k..] == BadCutLabel + (NatToString(badCuts) + []);
    NumberAtWritten(t, k, BadCutLabel, badCuts, []);
    forall i | 0 <= i < k
      ensures t[i] != 'B'
    {
      if i < |MissedLabel| {
        assert t[i] == MissedLabel[i];
      } else if i < |MissedLabel| + |nm| {
        assert t[i] == nm[i - |MissedLabel|];
        assert IsDigit(t[i]);
      } else {
        assert t[i] == sep[i - |MissedLabel| - |nm|];
      }
    }
    NoOccurrenceBefore(t, BadCutLabel, k);
    assert forall j :: 0 <= j < k ==> NumberAt(BadCutLabel, t, j).None?;
  }

  /** The counts written into a title are read back. */
  lemma {:induction false} ExtractValuesRoundTrip(missed: nat, sep: string, badCuts: nat)
    requires NoLetterB(sep)
    requires |sep| == 0 || !IsDigit(sep[0])
    ensures ExtractValuesFromTitle(MissTitle(missed, sep, badCuts)) == (missed, badCuts)
  {
    MissedReadBack(missed, sep, badCuts);
    BadCutReadBack(missed, sep, badCuts);
  }

  /** The miss improvement of one title: the counts read from the title
      (only when it mentions `Missed`) less the improvement's counts. */
  function MissDelta(title: string, imp: Improvement): (r: int)
    ensures !Contains(title, "Missed") ==> r == -(imp.missedNotes + imp.badCuts)
    ensures Contains(title, "Missed") ==>
      r + imp.missedNotes + imp.badCuts == ExtractValuesFromTitle(title).0 + ExtractValuesFromTitle(title).1
  {
    var (missed, badCuts) := if Contains(title, "Missed") then ExtractValuesFromTitle(title) else (0, 0);
    missed + badCuts - (imp.missedNotes + imp.badCuts)
  }

  /** The text appended: ` vs FC` for zero, else ` vs ` and the number. */
  function MissLabel(delta: int): (r: string)
    ensures ParseMissLabel(r) == Some(delta)
  {
    if delta == 0 then " vs FC"
    else
      var s := " vs " + IntToString(delta);
      assert s[4..] == IntToString(delta);
      IntToStringRoundTrip(delta);
      assert s != " vs FC" by {
        assert s[4] == IntToString(delta)[0];
        assert IntToString(delta)[0] == '-' || IsDigit(IntToString(delta)[0]);
      }
      s
  }

  /** Reads a marker back. */
  function ParseMissLabel(s: string): Option<int> {
    if s == " vs FC" then Some(0)
    else if |s| >= 4 && s[..4] == " vs " then
      match ParseInt(s[4..])
      case Some(d) => if d != 0 then Some(d) else None
      case None => None
    else None
  }

  /** When BeatLeader's improvement is the current counts less the previous
      ones, the delta is the previous play's total of misses and bad cuts,
      and the marker says FC exactly when that play had none. */
  lemma {:induction false} MissDeltaIsPreviousMisses(missed: nat, sep: string, badCuts: nat,
                                                     prevMissed: nat, prevBadCuts: nat, imp: Improvement)
    requires NoLetterB(sep)
    requires |sep| == 0 || !IsDigit(sep[0])
    requires imp.missedNotes == missed - prevMissed && imp.badCuts == badCuts - prevBadCuts
    ensures MissDelta(MissTitle(missed, sep, badCuts), imp) == prevMissed + prevBadCuts
    ensures MissLabel(MissDelta(MissTitle(missed, sep, badCuts), imp)) == " vs FC" <==> prevMissed + prevBadCuts == 0
  {
    var t := MissTitle(missed, sep, badCuts);
    ReadLiteral(t, 0, "Missed", ": " + (NatToString(missed) + (sep + (BadCutLabel + NatToString(badCuts)))));
    FirstSomeAt(t, PrefixFinder("Missed"), 0, 0);
    assert Contains(t, "Missed");
    ExtractValuesRoundTrip(missed, sep, badCuts);
  }

  /** A title that does not mention `Missed`, a full-combo title among
      them, carries no counts: the delta is what the improvement says was
      lost since the previous play. */
  lemma {:induction false} FullComboDelta(title: string, imp: Improvement)
    requires !Contains(title, "Missed")
    ensures MissDelta(title, imp) == -(imp.missedNotes + imp.badCuts)
  {
  }

  /** The full-combo title ScoreSaber shows does not mention `Missed`. */
  lemma FullComboTitle()
    ensures !Contains("Full Combo", "Missed")
  {
    NoOccurrenceBefore("Full Combo", "Missed", |"Full Combo"|);
  }

  /** Whether an element's title is matched by the annotation selector. */
  predicate IsSelected(t: string) {
    Contains(t, "Missed") || Contains(t, "Full Combo")
  }

  /** The elements whose title contains `Missed` or `Full Combo`, in document order. */
  function Selected(titles: seq<string>): (r: seq<string>)
    ensures forall k :: 0 <= k < |r| ==> IsSelected(r[k])
    ensures forall t :: multiset(r)[t] == (if IsSelected(t) then multiset(titles)[t] else 0)
    ensures |r| <= |titles|
  {
    if |titles| == 0 then []
    else
      var rest := Selected(titles[1..]);
      assert multiset(titles) == multiset([titles[0]]) + multiset(titles[1..]) by {
        assert titles == [titles[0]] + titles[1..];
      }
      if IsSelected(titles[0]) then
        assert multiset([titles[0]] + rest) == multiset([titles[0]]) + multiset(rest);
        [titles[0]] + rest
      else rest
  }

  /** Selection keeps document order: the titles of a page split in two are
      selected as the first part's selection followed by the second's. */
  lemma {:induction false} SelectedAppend(a: seq<string>, b: seq<string>)
    ensures Selected(a + b) == Selected(a) + Selected(b)
    decreases |a|
  {
    if |a| > 0 {
      assert (a + b)[1..] == a[1..] + b;
      SelectedAppend(a[1..], b);
    } else {
      assert a + b == b;
    }
  }

  /** A single title is selected exactly when it mentions `Missed` or `Full Combo`. */
  lemma SelectedSingle(t: string)
    ensures Selected([t]) == if IsSelected(t) then [t] else []
  {
    assert [t][1..] == [];
  }

  /** `addMissedBadCutImprovement`, run only when the accuracy improvement is
      non-zero: one marker per selected element. */
  function MissAnnotations(titles: seq<string>, s: Summary): (r: seq<string>)
    ensures s.scoreImprovement.accuracy == 0.0 ==> r == []
    ensures s.scoreImprovement.accuracy != 0.0 ==> |r| == |Selected(titles)|
    ensures s.scoreImprovement.accuracy != 0.0 ==>
      forall k :: 0 <= k < |r| ==> ParseMissLabel(r[k]) == Some(MissDelta(Selected(titles)[k], s.scoreImprovement))
  {
    if s.scoreImprovement.accuracy == 0.0 then []
    else
      var sel := Selected(titles);
      seq(|sel|, k requires 0 <= k < |sel| => MissLabel(MissDelta(sel[k], s.scoreImprovement)))
  }
}

=== FILE: scores.dfy ===
/** Raw ScoreSaber score entries and the normaliser that turns the
    `playerScores` payload into score records
    (scoresaber-enhanced-bl-replays.user.js:810-825). Every field read through
    `?.` and `?? null` is an Option; a `null` entry is one whose nested objects
    are both None. */
module Scores {
  import opened Js

  /** `leaderboard.difficulty`: numeric difficulty code and game mode label. */
  datatype DifficultyInfo = DifficultyInfo(difficulty: Option<int>, gameMode: Option<string>)

  datatype RawLeaderboard = RawLeaderboard(
    songHash: Option<string>,
    difficulty: Option<DifficultyInfo>,
    maxScore: Option<int>)

  datatype RawScore = RawScore(
    baseScore: Option<int>,
    modifiedScore: Option<int>,
    multiplier: Option<real>,
    pp: Option<real>,
    rank: Option<int>)

  datatype RawEntry = RawEntry(leaderboard: Option<RawLeaderboard>, score: Option<RawScore>)

  /** A normalised record; `idx` is the entry's position in the payload. */
  datatype Score = Score(
    idx: nat,
    hash: string,
    difficulty: DifficultyInfo,
    baseScore: int,
    modifiedScore: int,
    maxScore: Option<int>,
    multiplier: real,
    pp: Option<real>,
    rank: Option<int>)

  function SongHash(e: RawEntry): Option<string> {
    if e.leaderboard.Some? then e.leaderboard.value.songHash else None
  }

  function Difficulty(e: RawEntry): Option<DifficultyInfo> {
    if e.leaderboard.Some? then e.leaderboard.value.difficulty else None
  }

  function LeaderboardMaxScore(e: RawEntry): Option<int> {
    if e.leaderboard.Some? then e.leaderboard.value.maxScore else None
  }

  function BaseScore(e: RawEntry): Option<int> {
    if e.score.Some? then e.score.value.baseScore else None
  }

  function ModifiedScore(e: RawEntry): Option<int> {
    if e.score.Some? then e.score.value.modifiedScore else None
  }

  function Multiplier(e: RawEntry): Option<real> {
    if e.score.Some? then e.score.value.multiplier else None
  }

  function Pp(e: RawEntry): Option<real> {
    if e.score.Some? then e.score.value.pp else None
  }

  function Rank(e: RawEntry): Option<int> {
    if e.score.Some? then e.score.value.rank else None
  }

  /** An entry survives normalisation when hash, difficulty, base score,
      modified score and multiplier are all truthy (0 and "" count as missing). */
  predicate Keeps(e: RawEntry) {
    && TruthyString(SongHash(e))
    && Difficulty(e).Some?
    && TruthyInt(BaseScore(e))
    && TruthyInt(ModifiedScore(e))
    && TruthyReal(Multiplier(e))
  }

  /** The record built for a kept entry at position `idx`. */
  function ToScore(e: RawEntry, idx: nat): (s: Score)
    requires Keeps(e)
    ensures s.idx == idx && |s.hash| > 0
    ensures s.baseScore != 0 && s.modifiedScore != 0 && s.multiplier != 0.0
  {
    Score(idx, SongHash(e).value, Difficulty(e).value, BaseScore(e).value, ModifiedScore(e).value,
          LeaderboardMaxScore(e), Multiplier(e).value, Pp(e), Rank(e))
  }

  /** `s` is the record of the kept entry at position `s.idx` of `entries`. */
  predicate BuiltFrom(entries: seq<RawEntry>, s: Score) {
    s.idx < |entries| && Keeps(entries[s.idx]) && s == ToScore(entries[s.idx], s.idx)
  }

  /** Some record of `r` carries position `i`. */
  predicate Listed(r: seq<Score>, i: nat) {
    exists k :: 0 <= k < |r| && r[k].idx == i
  }

  /** Positions strictly increase along `r`. */
  predicate InPayloadOrder(r: seq<Score>) {
    forall k, l :: 0 <= k < l < |r| ==> r[k].idx < r[l].idx
  }

  /** Normalisation of the entries from position `from` on: exactly the kept
      ones, in payload order, each built from the entry its `idx` names. */
  function NormalizeFrom(entries: seq<RawEntry>, from: nat): (r: seq<Score>)
    ensures forall k :: 0 <= k < |r| ==> from <= r[k].idx && BuiltFrom(entries, r[k])
    ensures InPayloadOrder(r)
    ensures forall i {:trigger Listed(r, i)} :: from <= i < |entries| && Keeps(entries[i]) ==> Listed(r, i)
    decreases |entries| - from
  {
    if from >= |entries| then []
    else
      var rest := NormalizeFrom(entries, from + 1);
      if Keeps(entries[from]) then
        var r := [ToScore(entries[from], from)] + rest;
        ListedUnderCons(ToScore(entries[from], from), rest);
        OrderUnderCons(ToScore(entries[from], from), rest);
        assert Listed(r, from) by {
          assert r[0].idx == from;
        }
        assert forall k :: 0 <= k < |r| ==> from <= r[k].idx && BuiltFrom(entries, r[k]);
        r
      else rest
  }

  lemma OrderUnderCons(x: Score, rest: seq<Score>)
    requires InPayloadOrder(rest)
    requires forall k :: 0 <= k < |rest| ==> x.idx < rest[k].idx
    ensures InPayloadOrder([x] + rest)
  {
    var r := [x] + rest;
    forall k, l | 0 <= k < l < |r|
      ensures r[k].idx < r[l].idx
    {
      assert r[l] == rest[l - 1];
      if k > 0 {
        assert r[k] == rest[k - 1];
      }
    }
  }

  lemma ListedUnderCons(x: Score, rest: seq<Score>)
    ensures forall i :: Listed(rest, i) ==> Listed([x] + rest, i)
    ensures forall k :: 0 <= k < |rest| ==> ([x] + rest)[k + 1] == rest[k]
  {
    forall i | Listed(rest, i)
      ensures Listed([x] + rest, i)
    {
      var k :| 0 <= k < |rest| && rest[k].idx == i;
      assert ([x] + rest)[k + 1] == rest[k];
    }
  }

  /** The whole normaliser: every entry of the payload's score list (none when
      the list is missing) converted, the dropped ones left out. */
  function Normalize(playerScores: Option<seq<RawEntry>>): (r: seq<Score>)
    ensures playerScores.None? ==> r == []
    ensures playerScores.Some? ==> r == NormalizeFrom(playerScores.value, 0)
  {
    NormalizeFrom(playerScores.OrElse([]), 0)
  }

  lemma NormalizeFromStep(entries: seq<RawEntry>, from: nat)
    requires from < |entries|
    ensures Keeps(entries[from]) ==>
      NormalizeFrom(entries, from) == [ToScore(entries[from], from)] + NormalizeFrom(entries, from + 1)
    ensures !Keeps(entries[from]) ==> NormalizeFrom(entries, from) == NormalizeFrom(entries, from + 1)
  {
  }

  /** When every entry is well formed, normalisation keeps all of them, each at its own position. */
  lemma {:induction false} NormalizeKeepsWellFormed(entries: seq<RawEntry>, from: nat)
    requires forall i :: from <= i < |entries| ==> Keeps(entries[i])
    ensures |NormalizeFrom(entries, from)| == if from <= |entries| then |entries| - from else 0
    ensures forall k :: 0 <= k < |NormalizeFrom(entries, from)| ==> NormalizeFrom(entries, from)[k].idx == from + k
    decreases |entries| - from
  {
    if from < |entries| {
      NormalizeKeepsWellFormed(entries, from + 1);
      NormalizeFromStep(entries, from);
    }
  }

  /** Dropping one malformed entry (say, one without a multiplier) leaves every
      other entry, shifted down by one past the dropped position. */
  lemma {:induction false} NormalizeDropsOne(entries: seq<RawEntry>, from: nat, bad: nat)
    requires from <= bad < |entries|
    requires !Keeps(entries[bad])
    requires forall i :: from <= i < |entries| && i != bad ==> Keeps(entries[i])
    ensures |NormalizeFrom(entries, from)| == |entries| - from - 1
    ensures forall k :: 0 <= k < |NormalizeFrom(entries, from)| ==>
      NormalizeFrom(entries, from)[k].idx == (if from + k < bad then from + k else from + k + 1)
    decreases |entries| - from
  {
    if from == bad {
      NormalizeKeepsWellFormed(entries, from + 1);
      NormalizeFromStep(entries, from);
    } else {
      NormalizeDropsOne(entries, from + 1, bad);
      var rest := NormalizeFrom(entries, from + 1);
      var r := NormalizeFrom(entries, from);
      NormalizeFromStep(entries, from);
      forall k | 0 <= k < |r|
        ensures r[k].idx == (if from + k < bad then from + k else from + k + 1)
      {
        if k > 0 {
          assert r[k] == rest[k - 1];
        }
      }
    }
  }
}

=== FILE: text.dfy ===
/** String helpers standing in for the JavaScript built-ins the script calls:
    decimal digits (`\d`, `parseInt`, `Number`, number-to-string), ASCII
    `toUpperCase`, `indexOf`/`includes`/`replace` with a string pattern, and the
    leftmost-start search that an unanchored `String.prototype.match` performs. */
module Text {
  import opened Js

  predicate IsDigit(c: char) {
    '0' <= c <= '9'
  }

  predicate AllDigits(s: string) {
    forall i :: 0 <= i < |s| ==> IsDigit(s[i])
  }

  /** What `\d+` matches: one or more decimal digits. */
  predicate IsDigitString(s: string) {
    |s| > 0 && AllDigits(s)
  }

  function DigitValue(c: char): nat
    requires IsDigit(c)
  {
    c as int - '0' as int
  }

  function DigitChar(d: nat): char
    requires d < 10
  {
    ('0' as int + d) as char
  }

  /** `parseInt(s, 10)` / `Number(s)` on a string of decimal digits. */
  function DigitsValue(s: string): nat
    requires AllDigits(s)
  {
    if |s| == 0 then 0 else 10 * DigitsValue(s[..|s| - 1]) + DigitValue(s[|s| - 1])
  }

  /** Decimal rendering of a non-negative integer, as `String(n)` produces it. */
  function NatToString(n: nat): (r: string)
    ensures IsDigitString(r)
    ensures |r| > 1 ==> r[0] != '0'
    decreases n
  {
    if n < 10 then [DigitChar(n)] else NatToString(n / 10) + [DigitChar(n % 10)]
  }

  lemma {:induction false} NatToStringRoundTrip(n: nat)
    ensures DigitsValue(NatToString(n)) == n
    decreases n
  {
    if n >= 10 {
      NatToStringRoundTrip(n / 10);
      var s := NatToString(n / 10);
      assert (s + [DigitChar(n % 10)])[..|s|] == s;
    }
  }

  /** Decimal rendering of an integer, with a leading `-` when negative. */
  function IntToString(i: int): string {
    if i < 0 then "-" + NatToString(-i) else NatToString(i)
  }

  /** Reads back what IntToString writes. */
  function ParseInt(s: string): Option<int> {
    if |s| > 0 && s[0] == '-' && IsDigitString(s[1..]) then Some(-(DigitsValue(s[1..]) as int))
    else if IsDigitString(s) then Some(DigitsValue(s))
    else None
  }

  lemma IntToStringRoundTrip(i: int)
    ensures ParseInt(IntToString(i)) == Some(i)
  {
    NatToStringRoundTrip(if i < 0 then -i else i);
    if i < 0 {
      assert ("-" + NatToString(-i))[1..] == NatToString(-i);
    } else {
      assert IsDigit(IntToString(i)[0]);
    }
  }

  /** Length of the run of digits at the start of `s`: what a greedy `\d+` consumes. */
  function DigitRun(s: string): (n: nat)
    ensures n <= |s|
    ensures forall i :: 0 <= i < n ==> IsDigit(s[i])
    ensures n < |s| ==> !IsDigit(s[n])
  {
    if |s| == 0 || !IsDigit(s[0]) then 0 else 1 + DigitRun(s[1..])
  }

  /** The digit run of `d + t` is exactly `d` when `t` does not start with a digit. */
  lemma DigitRunOfDigitsThen(d: string, t: string)
    requires AllDigits(d)
    requires |t| == 0 || !IsDigit(t[0])
    ensures DigitRun(d + t) == |d|
  {
    assert forall i :: 0 <= i < |d| ==> IsDigit((d + t)[i]);
    assert |d| < |d + t| ==> (d + t)[|d|] == t[0];
  }

  /** ASCII upper-casing of one character. */
  function UpperChar(c: char): char {
    if 'a' <= c <= 'z' then (c as int - 32) as char else c
  }

  /** `s.toUpperCase()`, restricted to ASCII letters. */
  function ToUpper(s: string): (r: string)
    ensures |r| == |s|
    ensures forall i :: 0 <= i < |s| ==> r[i] == UpperChar(s[i])
  {
    seq(|s|, i requires 0 <= i < |s| => UpperChar(s[i]))
  }

  lemma ToUpperIdempotent(s: string)
    ensures ToUpper(ToUpper(s)) == ToUpper(s)
    ensures forall i :: 0 <= i < |s| ==> !('a' <= ToUpper(s)[i] <= 'z')
  {
  }

  /** Text without lower-case letters is its own upper case. */
  lemma ToUpperKeepsUpper(s: string)
    requires forall i :: 0 <= i < |s| ==> !('a' <= s[i] <= 'z')
    ensures ToUpper(s) == s
  {
  }

  /** `p` occurs in `s` starting at position `i`. */
  predicate HasPrefixAt(s: string, p: string, i: nat) {
    i + |p| <= |s| && s[i..i + |p|] == p
  }

  /** Reading `p` at position `i` of `s` when `s[i..]` is `p` followed by `t`. */
  lemma ReadLiteral(s: string, i: nat, p: string, t: string)
    requires i <= |s| && s[i..] == p + t
    ensures HasPrefixAt(s, p, i)
    ensures s[i + |p|..] == t
  {
    assert s[i..i + |p|] == s[i..][..|p|];
    assert s[i + |p|..] == s[i..][|p|..];
  }

  /** Reading the digit run `d` at position `i` of `s` when `s[i..]` is `d` followed by `t`. */
  lemma ReadDigits(s: string, i: nat, d: string, t: string)
    requires i <= |s| && s[i..] == d + t
    requires AllDigits(d)
    requires |t| == 0 || !IsDigit(t[0])
    ensures DigitRun(s[i..]) == |d|
    ensures s[i..i + |d|] == d
    ensures s[i + |d|..] == t
  {
    DigitRunOfDigitsThen(d, t);
    ReadLiteral(s, i, d, t);
  }

  /** Leftmost search: the first position `k` in `from..|s|` at which `at` succeeds,
      together with what it produced. An unanchored regular-expression match picks
      its start this way. */
  function FirstSome<T>(s: string, from: nat, at: (string, nat) -> Option<T>): (r: Option<(nat, T)>)
    ensures r.Some? ==> from <= r.value.0 <= |s| && at(s, r.value.0) == Some(r.value.1)
    ensures r.Some? ==> forall j :: from <= j < r.value.0 ==> at(s, j).None?
    ensures r.None? ==> forall j :: from <= j <= |s| ==> at(s, j).None?
    decreases |s| + 1 - from
  {
    if from > |s| then None
    else match at(s, from)
      case Some(v) => Some((from, v))
      case None => FirstSome(s, from + 1, at)
  }

  /** When `at` fails everywhere before `k` and succeeds at `k`, the search stops at `k`. */
  lemma FirstSomeAt<T>(s: string, at: (string, nat) -> Option<T>, k: nat, v: T)
    requires k <= |s|
    requires forall j :: 0 <= j < k ==> at(s, j).None?
    requires at(s, k) == Some(v)
    ensures FirstSome(s, 0, at) == Some((k, v))
  {
  }

  function PrefixFinder(p: string): (string, nat) -> Option<nat> {
    (t: string, i: nat) => if HasPrefixAt(t, p, i) then Some(i) else None
  }

  /** `s.indexOf(p)`, None standing for -1. */
  function IndexOf(s: string, p: string): (r: Option<nat>)
    ensures r.Some? ==> HasPrefixAt(s, p, r.value)
    ensures r.Some? ==> forall j :: 0 <= j < r.value ==> !HasPrefixAt(s, p, j)
    ensures r.None? ==> forall j :: 0 <= j <= |s| ==> !HasPrefixAt(s, p, j)
  {
    var found := FirstSome(s, 0, PrefixFinder(p));
    assert forall j :: 0 <= j <= |s| ==> (PrefixFinder(p)(s, j).None? <==> !HasPrefixAt(s, p, j));
    match found
    case None => None
    case Some((k, _)) => Some(k)
  }

  /** `s.includes(p)` */
  predicate Contains(s: string, p: string) {
    IndexOf(s, p).Some?
  }

  /** Replacing a string pattern with the empty string: only the first occurrence goes. */
  function RemoveFirst(s: string, p: string): (r: string)
    ensures IndexOf(s, p).None? ==> r == s
    ensures IndexOf(s, p).Some? ==>
      var k := IndexOf(s, p).value;
      |r| + |p| == |s| && k <= |r| && r[..k] + p + r[k..] == s
  {
    match IndexOf(s, p)
    case None => s
    case Some(k) =>
      var r := s[..k] + s[k + |p|..];
      assert r[..k] == s[..k] && r[k..] == s[k + |p|..];
      assert s == s[..k] + s[k..k + |p|] + s[k + |p|..];
      r
  }

  /** Removing the first occurrence of `p` from `p + t` leaves `t`. */
  lemma RemoveLeading(p: string, t: string)
    ensures RemoveFirst(p + t, p) == t
  {
    var s := p + t;
    ReadLiteral(s, 0, p, t);
    FirstSomeAt(s, PrefixFinder(p), 0, 0);
    assert IndexOf(s, p) == Some(0);
  }

  /** No occurrence of `p` can start where its first character does not appear. */
  lemma NoOccurrenceBefore(s: string, p: string, k: nat)
    requires |p| > 0 && k <= |s|
    requires forall i :: 0 <= i < k ==> s[i] != p[0]
    ensures forall j :: 0 <= j < k ==> !HasPrefixAt(s, p, j)
  {
    forall j | 0 <= j < k
      ensures !HasPrefixAt(s, p, j)
    {
      if j + |p| <= |s| {
        assert s[j..j + |p|][0] == s[j];
        assert s[j..j + |p|] != p;
      }
    }
  }
}

=== FILE: url_data.dfy ===
/** `matchSiteUrl`, `matchApiUrl` and `getUrlData`
    (scoresaber-enhanced-bl-replays.user.js:69-81): the two regular expressions
    written out as a parser over the URL's characters, and the conversion of
    their captures into a query context. */
module UrlData {
  import opened Js
  import opened Text
  import opened QueryContext

  /** The three capture groups: the player's digits, then the page digits and
      the sort text of the optional query. An absent group is None. */
  datatype Captures = Captures(id: string, page: Option<string>, sort: Option<string>)

  /** Both expressions have one shape: a leading path, a digit run for the
      player, a trail, and optionally `?page=`, a digit run, `&sort=` and the
      rest of the line, up to the end of the input. */
  datatype Pattern = Pattern(lead: string, trail: string)

  /** The site's profile path: `/u/`, the player id, no trail. */
  const SitePattern: Pattern := Pattern("/u/", "")

  /** The API's scores path: `/api/player/`, the player id, then `/scores`. */
  const ApiPattern: Pattern := Pattern("/api/player/", "/scores")

  const PageKey: string := "?page="
  const SortKey: string := "&sort="

  /** The characters `.` refuses to match. */
  predicate IsLineTerminator(c: char) {
    c == '\n' || c == '\r' || c == '\U{2028}' || c == '\U{2029}'
  }

  predicate NoLineTerminator(s: string) {
    forall i :: 0 <= i < |s| ==> !IsLineTerminator(s[i])
  }

  /** The text a match covers after the player id and trail: the query
      group when it was taken, else nothing. */
  function QueryText(c: Captures): string {
    if c.page.Some? && c.sort.Some? then PageKey + (c.page.value + (SortKey + c.sort.value)) else ""
  }

  /** The expression tried at start position `i` of `s`. Backtracking never
      helps: a shorter `\d+` leaves a digit where `trail`, `&sort=` or the end
      must follow, and the optional group is tried first but can only succeed
      where the end of input does not already follow the trail. */
  function MatchAt(p: Pattern, s: string, i: nat): (r: Option<Captures>)
    ensures r.Some? ==> IsDigitString(r.value.id)
    ensures r.Some? ==> (r.value.page.Some? <==> r.value.sort.Some?)
    ensures r.Some? && r.value.page.Some? ==> IsDigitString(r.value.page.value)
    ensures r.Some? && r.value.sort.Some? ==> NoLineTerminator(r.value.sort.value)
    ensures r.Some? ==> i <= |s| && s[i..] == p.lead + (r.value.id + (p.trail + QueryText(r.value)))
  {
    if HasPrefixAt(s, p.lead, i) then
      var r := MatchId(p, s[i + |p.lead|..]);
      assert s[i..] == s[i..i + |p.lead|] + s[i + |p.lead|..];
      r
    else None
  }

  /** The player digits and the trail, followed by the optional query group and the end of input. */
  function MatchId(p: Pattern, s: string): (r: Option<Captures>)
    ensures r.Some? ==> IsDigitString(r.value.id)
    ensures r.Some? ==> (r.value.page.Some? <==> r.value.sort.Some?)
    ensures r.Some? && r.value.page.Some? ==> IsDigitString(r.value.page.value)
    ensures r.Some? && r.value.sort.Some? ==> NoLineTerminator(r.value.sort.value)
    ensures r.Some? ==> s == r.value.id + (p.trail + QueryText(r.value))
  {
    var n := DigitRun(s);
    if n > 0 && HasPrefixAt(s, p.trail, n) then
      assert forall k :: 0 <= k < n ==> s[..n][k] == s[k];
      assert s == s[..n] + (s[n..n + |p.trail|] + s[n + |p.trail|..]);
      MatchQuery(s[..n], s[n + |p.trail|..])
    else None
  }

  /** The optional query group, then the end of input. */
  function MatchQuery(id: string, s: string): (r: Option<Captures>)
    requires IsDigitString(id)
    ensures r.Some? ==> r.value.id == id
    ensures r.Some? ==> (r.value.page.Some? <==> r.value.sort.Some?)
    ensures r.Some? && r.value.page.Some? ==> IsDigitString(r.value.page.value)
    ensures r.Some? && r.value.sort.Some? ==> NoLineTerminator(r.value.sort.value)
    ensures r.Some? ==> s == QueryText(r.value)
  {
    if |s| == 0 then Some(Captures(id, None, None))
    else if HasPrefixAt(s, PageKey, 0) then
      assert s == s[..|PageKey|] + s[|PageKey|..];
      MatchPage(id, s[|PageKey|..])
    else None
  }

  /** The page digits, `&sort=`, and a sort running to the end without a line terminator. */
  function MatchPage(id: string, s: string): (r: Option<Captures>)
    requires IsDigitString(id)
    ensures r.Some? ==> r.value.id == id && r.value.page.Some? && r.value.sort.Some?
    ensures r.Some? ==> IsDigitString(r.value.page.value) && NoLineTerminator(r.value.sort.value)
    ensures r.Some? ==> s == r.value.page.value + (SortKey + r.value.sort.value)
  {
    var n := DigitRun(s);
    if n > 0 && HasPrefixAt(s, SortKey, n) && NoLineTerminator(s[n + |SortKey|..]) then
      assert forall k :: 0 <= k < n ==> s[..n][k] == s[k];
      assert s == s[..n] + (s[n..n + |SortKey|] + s[n + |SortKey|..]);
      Some(Captures(id, Some(s[..n]), Some(s[n + |SortKey|..])))
    else None
  }

  /** Captures the expressions can produce: a digit-only player id, and the
      page digits and a one-line sort either both present or both absent. */
  predicate WellFormed(c: Captures) {
    && IsDigitString(c.id)
    && (c.page.Some? <==> c.sort.Some?)
    && (c.page.Some? ==> IsDigitString(c.page.value))
    && (c.sort.Some? ==> NoLineTerminator(c.sort.value))
  }

  lemma MatchPageComplete(id: string, page: string, sort: string)
    requires IsDigitString(id) && IsDigitString(page) && NoLineTerminator(sort)
    ensures MatchPage(id, page + (SortKey + sort)) == Some(Captures(id, Some(page), Some(sort)))
  {
    var s := page + (SortKey + sort);
    ReadDigits(s, 0, page, SortKey + sort);
    ReadLiteral(s, |page|, SortKey, sort);
    assert s[..|page|] == page;
  }

  lemma MatchQueryComplete(c: Captures)
    requires WellFormed(c)
    ensures MatchQuery(c.id, QueryText(c)) == Some(c)
  {
    if c.page.Some? {
      var rest := c.page.value + (SortKey + c.sort.value);
      ReadLiteral(QueryText(c), 0, PageKey, rest);
      MatchPageComplete(c.id, c.page.value, c.sort.value);
    }
  }

  /** What follows the player id never starts with a digit. */
  lemma AfterIdNoDigit(p: Pattern, c: Captures)
    requires p == SitePattern || p == ApiPattern
    ensures |p.trail + QueryText(c)| == 0 || !IsDigit((p.trail + QueryText(c))[0])
  {
    var t := p.trail + QueryText(c);
    if p == ApiPattern {
      assert t[0] == '/';
    } else if |t| > 0 {
      assert t == QueryText(c) && t[0] == '?';
    }
  }

  lemma MatchIdComplete(p: Pattern, c: Captures)
    requires p == SitePattern || p == ApiPattern
    requires WellFormed(c)
    ensures MatchId(p, c.id + (p.trail + QueryText(c))) == Some(c)
  {
    var t := p.trail + QueryText(c);
    var s := c.id + t;
    AfterIdNoDigit(p, c);
    ReadDigits(s, 0, c.id, t);
    ReadLiteral(s, |c.id|, p.trail, QueryText(c));
    assert s[..|c.id|] == c.id;
    MatchQueryComplete(c);
  }

  /** The converse of MatchAt's contract: wherever the text from position
      `i` to the end has the pattern's shape, the expression matches there
      and captures exactly those parts. */
  lemma MatchAtComplete(p: Pattern, s: string, i: nat, c: Captures)
    requires p == SitePattern || p == ApiPattern
    requires WellFormed(c)
    requires i <= |s| && s[i..] == p.lead + (c.id + (p.trail + QueryText(c)))
    ensures MatchAt(p, s, i) == Some(c)
  {
    ReadLiteral(s, i, p.lead, c.id + (p.trail + QueryText(c)));
    MatchIdComplete(p, c);
  }

  /** Any URL of the pattern's shape, behind an origin in which the leading
      path does not start, gives the context its captures describe: page 1
      without the query, otherwise the page digits' value (leading zeros
      allowed), and Recent exactly for the sort text `recent`. */
  lemma {:induction false} GetUrlDataOfShape(p: Pattern, prefix: string, c: Captures)
    requires p == SitePattern || p == ApiPattern
    requires WellFormed(c)
    requires NoLeadBefore(p, prefix + (p.lead + (c.id + (p.trail + QueryText(c)))), |prefix|)
    ensures GetUrlData(prefix + (p.lead + (c.id + (p.trail + QueryText(c)))), p) ==
      Some(Context(c.id, if c.page.Some? then DigitsValue(c.page.value) else 1,
                   if c.sort == Some("recent") then Recent else Top))
  {
    var s := prefix + (p.lead + (c.id + (p.trail + QueryText(c))));
    assert s[|prefix|..] == p.lead + (c.id + (p.trail + QueryText(c)));
    MatchAtComplete(p, s, |prefix|, c);
    NoMatchInPrefix(p, s, |prefix|);
    FirstSomeAt(s, Matcher(p), |prefix|, c);
  }

  function Matcher(p: Pattern): (string, nat) -> Option<Captures> {
    (t: string, i: nat) => MatchAt(p, t, i)
  }

  /** Matching against a URL: the captures of the leftmost start position that matches. */
  function Match(p: Pattern, url: string): Option<Captures> {
    match FirstSome(url, 0, Matcher(p))
    case None => None
    case Some((_, c)) => Some(c)
  }

  /** `getUrlData(url, matcher)`: no context without a match; `page` is the
      parsed page group or 1 when the group is absent; `sort` is Recent exactly
      when the captured text is `recent`. */
  function GetUrlData(url: string, p: Pattern): (r: Option<Context>)
    ensures r.None? <==> forall i :: 0 <= i <= |url| ==> MatchAt(p, url, i).None?
    ensures r.Some? ==> Match(p, url).Some? && r.value.playerId == Match(p, url).value.id
    ensures r.Some? && Match(p, url).value.page.None? ==> r.value.page == 1
    ensures r.Some? && Match(p, url).value.page.Some? ==>
      AllDigits(Match(p, url).value.page.value) && r.value.page == DigitsValue(Match(p, url).value.page.value)
    ensures r.Some? ==> (r.value.sort == Recent <==> Match(p, url).value.sort == Some("recent"))
  {
    var found := FirstSome(url, 0, Matcher(p));
    assert forall i :: 0 <= i <= |url| ==> Matcher(p)(url, i) == MatchAt(p, url, i);
    match found
    case None => None
    case Some((k, c)) =>
      assert MatchAt(p, url, k) == Some(c);
      var page := if c.page.Some? then DigitsValue(c.page.value) else 1;
      var sort := if c.sort == Some("recent") then Recent else Top;
      Some(Context(c.id, page, sort))
  }

  /** The URL a context is reached by: the pattern's path with an explicit query. */
  function Render(p: Pattern, c: Context): string {
    p.lead + (c.playerId + (p.trail + (PageKey + (NatToString(c.page) + (SortKey + SortName(c.sort))))))
  }

  lemma MatchPageRendered(c: Context)
    ensures MatchPage(c.playerId, NatToString(c.page) + (SortKey + SortName(c.sort)))
         == Some(Captures(c.playerId, Some(NatToString(c.page)), Some(SortName(c.sort))))
  {
    var ps := NatToString(c.page);
    var t := SortKey + SortName(c.sort);
    ReadDigits(ps + t, 0, ps, t);
    ReadLiteral(ps + t, |ps|, SortKey, SortName(c.sort));
    assert (ps + t)[..|ps|] == ps;
    SortNameIsOneLine(c.sort);
  }

  lemma SortNameIsOneLine(s: Sort)
    ensures NoLineTerminator(SortName(s))
  {
    var name := SortName(s);
    forall i | 0 <= i < |name|
      ensures !IsLineTerminator(name[i])
    {
      assert 'a' <= name[i] <= 'z';
    }
  }

  lemma MatchQueryRendered(c: Context)
    ensures MatchQuery(c.playerId, PageKey + (NatToString(c.page) + (SortKey + SortName(c.sort))))
         == Some(Captures(c.playerId, Some(NatToString(c.page)), Some(SortName(c.sort))))
  {
    var q := PageKey + (NatToString(c.page) + (SortKey + SortName(c.sort)));
    ReadLiteral(q, 0, PageKey, NatToString(c.page) + (SortKey + SortName(c.sort)));
    MatchPageRendered(c);
  }

  lemma MatchIdRendered(p: Pattern, c: Context)
    requires p == SitePattern || p == ApiPattern
    ensures MatchId(p, c.playerId + (p.trail + (PageKey + (NatToString(c.page) + (SortKey + SortName(c.sort))))))
         == Some(Captures(c.playerId, Some(NatToString(c.page)), Some(SortName(c.sort))))
  {
    var id: string := c.playerId;
    var q := PageKey + (NatToString(c.page) + (SortKey + SortName(c.sort)));
    var t := p.trail + q;
    assert t[0] == (if p == SitePattern then '?' else '/');
    ReadDigits(id + t, 0, id, t);
    ReadLiteral(id + t, |id|, p.trail, q);
    assert (id + t)[..|id|] == id;
    MatchQueryRendered(c);
  }

  lemma MatchIdBare(p: Pattern, id: PlayerId)
    requires p == SitePattern || p == ApiPattern
    ensures MatchId(p, id + p.trail) == Some(Captures(id, None, None))
  {
    ReadDigits(id + p.trail, 0, id, p.trail);
    ReadLiteral(id + p.trail, |id|, p.trail, []);
    assert (id + p.trail)[..|id|] == id;
  }

  /** No occurrence of the pattern's leading path starts before position `k`
      of `s`, so no match can start there either. */
  predicate NoLeadBefore(p: Pattern, s: string, k: nat) {
    forall j :: 0 <= j < k ==> !HasPrefixAt(s, p.lead, j)
  }

  /** The origin of the pages the script runs on. */
  const Origin: string := "https://scoresaber.com"

  /** Both leading paths are a `/` and a letter that never follows a `/` in
      the origin, which does not end in `/`: no path starts inside it. */
  lemma OriginHasNoLead(p: Pattern, rest: string)
    requires p == SitePattern || p == ApiPattern
    ensures NoLeadBefore(p, Origin + rest, |Origin|)
  {
    var s := Origin + rest;
    forall j | 0 <= j < |Origin|
      ensures !HasPrefixAt(s, p.lead, j)
    {
      if j + |p.lead| <= |s| {
        assert s[j..j + |p.lead|][0] == s[j] && s[j..j + |p.lead|][1] == s[j + 1];
        assert s[j] == Origin[j];
        if j + 1 < |Origin| {
          assert s[j + 1] == Origin[j + 1];
          assert Origin[j] != '/' || Origin[j + 1] != p.lead[1];
        } else {
          assert Origin[j] == 'm';
        }
      }
    }
  }

  lemma NoMatchInPrefix(p: Pattern, s: string, k: nat)
    requires NoLeadBefore(p, s, k)
    ensures forall j :: 0 <= j < k ==> MatchAt(p, s, j).None?
  {
  }

  lemma MatchRendered(p: Pattern, prefix: string, c: Context)
    requires p == SitePattern || p == ApiPattern
    requires NoLeadBefore(p, prefix + Render(p, c), |prefix|)
    ensures MatchAt(p, prefix + Render(p, c), |prefix|).Some?
    ensures Match(p, prefix + Render(p, c)) == Some(Captures(c.playerId, Some(NatToString(c.page)), Some(SortName(c.sort))))
  {
    var body := c.playerId + (p.trail + (PageKey + (NatToString(c.page) + (SortKey + SortName(c.sort)))));
    var s := prefix + Render(p, c);
    assert s[|prefix|..] == p.lead + body;
    ReadLiteral(s, |prefix|, p.lead, body);
    MatchIdRendered(p, c);
    var caps := Captures(c.playerId, Some(NatToString(c.page)), Some(SortName(c.sort)));
    assert MatchAt(p, s, |prefix|) == Some(caps);
    NoMatchInPrefix(p, s, |prefix|);
    FirstSomeAt(s, Matcher(p), |prefix|, caps);
  }

  /** A rendered context is read back unchanged behind any origin in which
      the pattern's leading path does not start. */
  lemma GetUrlDataRoundTrip(p: Pattern, prefix: string, c: Context)
    requires p == SitePattern || p == ApiPattern
    requires NoLeadBefore(p, prefix + Render(p, c), |prefix|)
    ensures GetUrlData(prefix + Render(p, c), p) == Some(c)
  {
    var s := prefix + Render(p, c);
    MatchRendered(p, prefix, c);
    var r := GetUrlData(s, p);
    assert r.Some?;
    NatToStringRoundTrip(c.page);
    assert r.value.page == c.page;
    assert r.value.sort == c.sort by {
      assert SortName(Top) != "recent";
    }
  }

  /** The page and API URLs of every context, on the site's own origin, are read back unchanged. */
  lemma {:induction false} OriginRoundTrip(p: Pattern, c: Context)
    requires p == SitePattern || p == ApiPattern
    ensures GetUrlData(Origin + Render(p, c), p) == Some(c)
  {
    OriginHasNoLead(p, Render(p, c));
    GetUrlDataRoundTrip(p, Origin, c);
  }

  lemma MatchBare(p: Pattern, prefix: string, id: PlayerId)
    requires p == SitePattern || p == ApiPattern
    requires NoLeadBefore(p, prefix + (p.lead + (id + p.trail)), |prefix|)
    ensures Match(p, prefix + (p.lead + (id + p.trail))) == Some(Captures(id, None, None))
  {
    var s := prefix + (p.lead + (id + p.trail));
    assert s[|prefix|..] == p.lead + (id + p.trail);
    ReadLiteral(s, |prefix|, p.lead, id + p.trail);
    MatchIdBare(p, id);
    assert MatchAt(p, s, |prefix|) == Some(Captures(id, None, None));
    NoMatchInPrefix(p, s, |prefix|);
    FirstSomeAt(s, Matcher(p), |prefix|, Captures(id, None, None));
  }

  /** Without the query group the context is page 1, sorted by top. */
  lemma GetUrlDataDefaults(p: Pattern, prefix: string, id: PlayerId)
    requires p == SitePattern || p == ApiPattern
    requires NoLeadBefore(p, prefix + (p.lead + (id + p.trail)), |prefix|)
    ensures GetUrlData(prefix + (p.lead + (id + p.trail)), p) == Some(Context(id, 1, Top))
  {
    MatchBare(p, prefix, id);
  }
}
